=== FILE: README.md ===
# knapstack exact solvers in Dafny

A model of the exact knapsack solvers of knapstack. There are two:

- `Knapstack::BranchAndBound` (0/1: each item is taken or not). It appears in
  `include/knapstack/branch_and_bound.hpp` and again, word for word, at lines
  125-201 of `single-header/knapstack_solver.hpp`.
- `UnboundedKnapstack::BranchAndBound` (any number of units per item). It
  appears only in the single header.

Both solvers work the same way. `solve` drops the items that cost more than
the budget and sorts the rest by decreasing value/cost ratio, remembering
each item's original index. `iterative_bnb` then runs a depth-first
branch-and-bound over that list, on an explicit stack. It prunes a node when
`computeUpperBound` is not above the best value found so far. Finally
`solve` pops the winning stack into a `Solution` through the saved indices.

The two `computeUpperBound`s differ. The 0/1 one is the fractional
relaxation, an upper bound on every completion of the node. The unbounded
one takes whole units of each item in turn and drops the leftover budget,
which is not an upper bound (see Findings), so the unbounded search as
written can return a suboptimal solution. The unbounded engine is therefore
modelled with the estimate as a parameter `e`: `Chained` is the source's
estimate, and `Relaxed` is the corrected one, v + b·ratio(depth).

Modules:

- `Items`: the item, its exact ratio and the sort comparator.
- `Sums`: weighted sums over selections and counts, and reindexing through
  a permutation.
- `Bounds`: both estimators and their soundness.
- `Preprocessing`: the filter loop and the ratio sort.
- `Solutions`: the two `Solution` classes, as Dafny classes with their fields
  updated in place.
- `SearchOrder` and `UnboundedOrder`: the order in which the depth-first
  search visits leaves.
- `Control`: the three jump targets.
- `Knapsack01` and `UnboundedKnapsack`: the two engines and their `solve`.

Each `iterative_bnb` is a `while` loop over a `Search` record. The record
holds the locals of the source (`stack`, `depth`, `value`, `budget_left`,
`best_stack`, `best_value`) and a phase (`Descend`, `Backtrack`, `Done`) that
stands for the `goto` labels. `Step` performs one jump. Its contract keeps
the search invariant:

- the stack's depths are strictly increasing;
- `value` and `budget_left` are exactly the stack's sums;
- the incumbent is a stack within the budget, and `best_value` is its value;
- in the 0/1 search, and in the unbounded search with the `Relaxed`
  estimate, every leaf visited so far, in depth-first order, is worth at
  most `best_value`.

The loop terminates because the number of accounted-for leaves grows (or
stays the same while the phase or the depth advances). When the loop ends
every leaf has been accounted for. For items with non-negative values:

- the 0/1 `solve` is proved optimal over all selections of the caller's
  items;
- the unbounded `solve` with the source's `Chained` estimate is proved to
  return the counts that the search's best stack sets through the saved
  indices: non-negative, within the budget and worth the search's
  `best_value` (the empty solution when nothing fits), but not optimal:
  `UnboundedKnapsack.ChainedSearchMissesOptimum` runs the search to a value
  of 11 where 12 fits;
- the unbounded `solve` with the `Relaxed` estimate is proved optimal over
  all count vectors of the caller's items.

## Model

| member | source | states |
|---|---|---|
| Items.Precedes | single-header/knapstack_solver.hpp:66 | `a < b` holds exactly when a.value·b.cost > b.value·a.cost, i.e. when a's ratio is strictly larger |
| Items.RatioCrossMultiplication | single-header/knapstack_solver.hpp:62-66 | comparing exact ratios value/cost, strictly or not, agrees with comparing the cross-multiplied integers |
| Items.PrecedesIsStrictWeakOrder | single-header/knapstack_solver.hpp:66 | the comparator is irreflexive and transitive, and equal ratios are transitively incomparable, so it is a valid sort order |
| Bounds.ComputeUpperBound | include/knapstack/branch_and_bound.hpp:23-32 | the 0/1 loop returns `UpperBound`: whole items while the budget left exceeds their cost, then the budget left times the ratio of the first item it does not exceed, or the plain sum when every item is taken (the single header repeats this loop at single-header/knapstack_solver.hpp lines 133-142) |
| Bounds.UpperBoundSound | include/knapstack/branch_and_bound.hpp:23-32 | for items sorted by non-increasing ratio with positive costs and non-negative values, the bound is at least `bound_value` plus the value of any selection from `depth` on that fits `bound_budget_left` |
| Bounds.UpperBoundSlope | include/knapstack/branch_and_bound.hpp:26-29 | extra budget raises the bound by at most r per unit, r being any bound on the remaining ratios |
| Bounds.UpperBoundNoBudget | include/knapstack/branch_and_bound.hpp:26-27 | with no budget left the bound is `bound_value` |
| Bounds.UpperBoundAtLeastValue | include/knapstack/branch_and_bound.hpp:23-32 | with non-negative values and budget the bound is never below `bound_value` |
| Bounds.ComputeUnboundedUpperBound | single-header/knapstack_solver.hpp:273-283 | the unbounded loop returns `UnboundedUpperBound`: floor(budget_left/cost) units of each item whose cost is below the budget left, then the budget left times the ratio of the first item costing at least as much |
| Bounds.UnboundedUpperBoundAtLeastValue | single-header/knapstack_solver.hpp:273-283 | with non-negative values and budget the unbounded estimate is never below `bound_value` |
| Bounds.UnboundedUpperBoundUnderestimates | single-header/knapstack_solver.hpp:273-283 | for items (11,7), (7,5), (4,3) sorted by ratio and budget 9 at depth 1, the estimate is 11, yet three units of (4,3) fit and are worth 12 |
| Bounds.RelaxedUnboundedBoundSound | single-header/knapstack_solver.hpp:302-303 | the corrected estimate v + b·ratio(depth) is at least v plus the value of any non-negative counts from `depth` on that fit b |
| Bounds.RelaxedUnboundedBoundAtLeastValue | single-header/knapstack_solver.hpp:302-303 | the corrected estimate is never below `bound_value` |
| Preprocessing.KeepFitting | single-header/knapstack_solver.hpp:182-188 | remove_if and erase keep, in original order, exactly the (item, index) pairs whose cost is at most the budget, each with its own index |
| Preprocessing.SortByRatio | single-header/knapstack_solver.hpp:189 | the sort returns a permutation of its input (same multiset) ordered by non-increasing ratio |
| Preprocessing.Insert | single-header/knapstack_solver.hpp:189 | inserting one pair adds exactly that pair to the multiset |
| Preprocessing.InsertSorted | single-header/knapstack_solver.hpp:189 | inserting into a ratio-sorted sequence keeps it ratio-sorted |
| Preprocessing.KeptIndices | single-header/knapstack_solver.hpp:182-189 | after sorting, each fitting index appears exactly once and no other index appears |
| Preprocessing.Preprocess | single-header/knapstack_solver.hpp:179-189 | sorted items and indices are parallel, each position holds the caller's item at its index, the indices are distinct, an index is present iff its item fits the budget, and the items are in ratio order |
| Preprocessing.FirstFits | include/knapstack/branch_and_bound.hpp:41 | the first sorted item, which `goto begin` commits unconditionally, fits the budget |
| Preprocessing.NothingFits | include/knapstack/branch_and_bound.hpp:72-81 | when no item fits the budget, preprocessing leaves an empty list, the list whose element 0 the search then reads |
| Solutions.Solution.constructor | single-header/knapstack_solver.hpp:99 | a new solution has one flag per item, all false |
| Solutions.Solution.Add | single-header/knapstack_solver.hpp:101 | `add(i)` sets flag i and changes nothing else |
| Solutions.Solution.Set | single-header/knapstack_solver.hpp:102 | `set(i, b)` sets flag i to b and changes nothing else |
| Solutions.Solution.Remove | single-header/knapstack_solver.hpp:103 | `remove(i)` clears flag i and changes nothing else |
| Solutions.Solution.GetValue | single-header/knapstack_solver.hpp:108-113 | the loop returns the sum of the values of the taken items |
| Solutions.Solution.GetCost | single-header/knapstack_solver.hpp:114-119 | the loop returns the sum of the costs of the taken items |
| Solutions.UnboundedSolution.constructor | single-header/knapstack_solver.hpp:239 | a new solution has one count per item, all zero |
| Solutions.UnboundedSolution.Add | single-header/knapstack_solver.hpp:241 | `add(i)` raises count i by one and changes nothing else |
| Solutions.UnboundedSolution.Set | single-header/knapstack_solver.hpp:242 | `set(i, n)` makes count i equal to n and changes nothing else |
| Solutions.UnboundedSolution.Remove | single-header/knapstack_solver.hpp:243 | `remove(i)` zeroes count i and changes nothing else |
| Solutions.UnboundedSolution.GetValue | single-header/knapstack_solver.hpp:248-253 | the loop returns the sum of count·value over the items |
| Solutions.UnboundedSolution.GetCost | single-header/knapstack_solver.hpp:254-259 | the loop returns the sum of count·cost over the items |
| Sums.WeightedReindex | single-header/knapstack_solver.hpp:337-342 | counts over the caller's indices that are zero outside `permuted_id` have the same weighted sum as the counts they induce on the sorted list |
| Knapsack01.StackSumIsDot | include/knapstack/branch_and_bound.hpp:53-55 | the sum accumulated push by push equals the sum over the selection whose taken depths are the stack's depths |
| Knapsack01.SkipStep | include/knapstack/branch_and_bound.hpp:49 | skipping an item that does not fit the budget left loses no selection within the budget |
| Knapsack01.PruneStep | include/knapstack/branch_and_bound.hpp:50-51 | when the bound is at most the incumbent, no selection in the pruned subtree is worth more than the incumbent |
| Knapsack01.TakeStep | include/knapstack/branch_and_bound.hpp:52-55 | pushing depth d keeps the stack strictly increasing, and the visit order stays where it was |
| Knapsack01.LeafStep | include/knapstack/branch_and_bound.hpp:57-60 | at full depth the current selection is the only leaf of its node, so after the incumbent check one more leaf is accounted for |
| Knapsack01.PopStep | include/knapstack/branch_and_bound.hpp:44-47 | popping the top depth t and resuming at t + 1 moves from the end of the current subtree to the start of the sibling that leaves t out |
| Knapsack01.EmptyStep | include/knapstack/branch_and_bound.hpp:43 | with the stack empty, every leaf has been accounted for |
| Knapsack01.RootInvariant | include/knapstack/branch_and_bound.hpp:41 | the state after the root commit of `goto begin` (item 0 taken, incumbent empty with value 0) satisfies the search invariant |
| Knapsack01.SkipTransition | include/knapstack/branch_and_bound.hpp:49 | the `continue` on an item that does not fit keeps the invariant and advances the search |
| Knapsack01.PruneTransition | include/knapstack/branch_and_bound.hpp:50-51 | `goto backtrack` on a bound at most `best_value` keeps the invariant and advances the search |
| Knapsack01.TakeTransition | include/knapstack/branch_and_bound.hpp:52-55 | adding the item's value, subtracting its cost and pushing the depth keeps the invariant and advances the search |
| Knapsack01.LeafTransition | include/knapstack/branch_and_bound.hpp:57-60 | the incumbent is replaced only when `value` is strictly larger, by a copy of the stack; this keeps the invariant |
| Knapsack01.PopTransition | include/knapstack/branch_and_bound.hpp:44-47 | popping restores `value` and `budget_left` to the sums of the shorter stack and resumes at the next depth |
| Knapsack01.EmptyTransition | include/knapstack/branch_and_bound.hpp:43 | leaving the loop on an empty stack keeps the invariant and ends the search |
| Knapsack01.Step | include/knapstack/branch_and_bound.hpp:41-61 | one jump of the search keeps the invariant and advances the termination measure; when the jump is at full depth with `value > best_value` the incumbent becomes the current stack and its value, and on every other jump it stays unchanged |
| Knapsack01.IterativeBnb | include/knapstack/branch_and_bound.hpp:34-63 | the best stack is strictly increasing, its value is `best_value` ≥ 0 and its cost is within the budget; for ratio-sorted items with non-negative values no selection within the budget is worth more (repeated in the single header, lines 144-173) |
| Knapsack01.Reindex | include/knapstack/branch_and_bound.hpp:84-87 | a selection of the caller's items using only kept indices has the same value and cost as the selection it induces on the sorted items |
| Knapsack01.SelectedItemsFit | include/knapstack/branch_and_bound.hpp:73-75 | an item taken by a selection within the budget fits the budget by itself, so filtering never removes it |
| Knapsack01.MarkTaken | include/knapstack/branch_and_bound.hpp:84-87 | the pop loop marks taken exactly the original index of each depth on the stack and leaves every other flag false |
| Knapsack01.MarkedSolution | include/knapstack/branch_and_bound.hpp:83-88 | the marked solution is worth `best_value` and costs the best stack's cost; optimality over the sorted items transfers to all selections of the caller's items |
| Knapsack01.Solve | include/knapstack/branch_and_bound.hpp:67-88 | for all values: the preprocessing satisfies `Preprocessed`; the flags are exactly the marks of the best stack through `permuted_id` (the empty stack when no item fits); the solution is worth the stack's value, which is at least 0, and costs the stack's cost, which is within the budget; for non-negative values it is worth at least any selection within the budget (repeated in the single header, lines 177-199) |
| UnboundedKnapsack.TakeSumIsWeighted | single-header/knapstack_solver.hpp:305-308 | the sums accumulated entry by entry equal Σ count·weight over the counts the stack stands for, and those counts are non-negative |
| UnboundedKnapsack.UnitsToTake | single-header/knapstack_solver.hpp:305 | `nb_take` for an item that fits is at least 1, its units fit the budget left, and one more unit would not |
| UnboundedKnapsack.PushTake | single-header/knapstack_solver.hpp:308 | `emplace(depth, nb_take)` above every stacked depth keeps a valid stack and sets that depth's count to `nb_take` |
| UnboundedKnapsack.PushTakeSum | single-header/knapstack_solver.hpp:306-308 | pushing an entry adds `nb_take` times the item's weight to the stack's sums |
| UnboundedKnapsack.RemoveOneUnitStack | single-header/knapstack_solver.hpp:296-297 | decrementing the top count, and popping at zero, leaves a valid stack whose depths are at most the old top depth |
| UnboundedKnapsack.RemoveOneUnitCounts | single-header/knapstack_solver.hpp:296-297 | the backtrack lowers the top depth's count by exactly one and leaves every other count alone |
| UnboundedKnapsack.RemoveOneUnitSum | single-header/knapstack_solver.hpp:296-299 | the backtrack lowers the stack's value and cost by exactly one unit of the top item, as lines 298-299 undo them |
| UnboundedKnapsack.OverStep | single-header/knapstack_solver.hpp:300-308 | taking u units (or none) when u + 1 do not fit the budget left loses no count vector within the budget |
| UnboundedKnapsack.MoreUnitsOverBudget | single-header/knapstack_solver.hpp:305 | counts that agree with the stack below the depth and take more units there than fit the budget left are over the budget |
| UnboundedKnapsack.OverLeaf | single-header/knapstack_solver.hpp:300-308 | a count vector within the budget below the node never comes before the child taking u units when u + 1 do not fit |
| UnboundedKnapsack.UnitsWithinBudget | single-header/knapstack_solver.hpp:305 | the units committed at a node never exceed the budget, so the count stays a digit of the search order |
| UnboundedKnapsack.PushKey | single-header/knapstack_solver.hpp:308 | pushing u units at depth d extends the node's position in the search order by the digit budget − u |
| UnboundedKnapsack.LeafBelowNode | single-header/knapstack_solver.hpp:302-303 | a count vector within the budget whose position lies in the node's range agrees with the stack at every depth above the node |
| UnboundedKnapsack.PrunedLeaf | single-header/knapstack_solver.hpp:302-303 | such a count vector is worth at most the corrected estimate from the node |
| UnboundedKnapsack.BoundCoversLeaf | single-header/knapstack_solver.hpp:302-303 | for the corrected prune test: every count vector within the budget below the current node is worth at most the corrected estimate from that node |
| UnboundedKnapsack.PruneStep | single-header/knapstack_solver.hpp:302-303 | for the corrected prune test: when the corrected estimate is at most the incumbent, no count vector in the pruned subtree is worth more than it |
| UnboundedKnapsack.LeafStep | single-header/knapstack_solver.hpp:310-313 | at full depth the current counts are the only leaf of their node |
| UnboundedKnapsack.PopStep | single-header/knapstack_solver.hpp:295-299 | the backtrack moves from the end of the current subtree to the start of the sibling with one unit fewer at the top depth |
| UnboundedKnapsack.EmptyStep | single-header/knapstack_solver.hpp:294 | with the stack empty every count vector has been accounted for |
| UnboundedKnapsack.CommitStep | single-header/knapstack_solver.hpp:305-308 | committing u fitting units keeps the stack, value and budget-left relation and places the search at the child taking u units |
| UnboundedKnapsack.RootInvariant | single-header/knapstack_solver.hpp:292 | the state after the root commit of `goto begin` (as many units of item 0 as fit) satisfies the search invariant, for either estimate |
| UnboundedKnapsack.SkipTransition | single-header/knapstack_solver.hpp:301 | the `continue` on an item that does not fit keeps the invariant and advances the search |
| UnboundedKnapsack.PruneTransition | single-header/knapstack_solver.hpp:302-303 | `goto backtrack` when the estimate in use is at most `best_value` keeps a valid node and incumbent and advances the search; only with the corrected estimate does it also keep every pruned count vector dominated by the incumbent |
| UnboundedKnapsack.TakeTransition | single-header/knapstack_solver.hpp:304-308 | committing the largest number of units that fit keeps the invariant and advances the search |
| UnboundedKnapsack.LeafTransition | single-header/knapstack_solver.hpp:310-313 | the incumbent is replaced only on a strict improvement, by a copy of the stack; this keeps the invariant |
| UnboundedKnapsack.PopTransition | single-header/knapstack_solver.hpp:295-300 | removing one unit and resuming at the next depth keeps the invariant and advances the search |
| UnboundedKnapsack.EmptyTransition | single-header/knapstack_solver.hpp:294 | leaving the loop on an empty stack keeps the invariant and ends the search |
| UnboundedKnapsack.Step | single-header/knapstack_solver.hpp:292-314 | one jump, pruning with the estimate `e` (`Chained` is line 302 as written), keeps the invariant for that estimate and advances the termination measure; when the jump is at full depth with `value > best_value` the incumbent becomes the current stack and its value, and on every other jump it stays unchanged |
| UnboundedKnapsack.Run | single-header/knapstack_solver.hpp:292-314 | repeating the jumps from any state satisfying the invariant ends in the state after the loop, with the invariant kept and `best_value` never lowered |
| UnboundedKnapsack.Outcome | single-header/knapstack_solver.hpp:285-316 | the search from the root commit stops, in a state satisfying the invariant for its estimate |
| UnboundedKnapsack.IterativeBnb | single-header/knapstack_solver.hpp:285-316 | the loop returns the best stack and value of `Outcome`; for either estimate the best stack is valid, its value is `best_value` ≥ 0 and its cost is within the budget; with the corrected estimate and ratio-sorted items with non-negative values, no count vector within the budget is worth more |
| UnboundedKnapsack.ChainedSearchMissesOptimum | single-header/knapstack_solver.hpp:285-316 | on items (11,7), (7,5), (4,3) (value, cost) with budget 9, sorted and non-negative, the search as written stops with best stack [(0,1)] worth 11, while three units of (4,3) cost 9 and are worth 12 |
| UnboundedKnapsack.SetCounts | single-header/knapstack_solver.hpp:337-342 | the pop loop sets the count of `permuted_id[d]` to the units of the entry at depth d, and leaves every other count at zero |
| UnboundedKnapsack.CountedItemsFit | single-header/knapstack_solver.hpp:326-328 | an item with a non-zero count in a vector within the budget fits the budget by itself |
| UnboundedKnapsack.SetSolution | single-header/knapstack_solver.hpp:337-343 | the solution's counts are non-negative, its value is `best_value` and its cost the best stack's cost; optimality over the sorted items transfers to all count vectors of the caller's items |
| UnboundedKnapsack.PopSolution | single-header/knapstack_solver.hpp:337-343 | a fresh solution over the caller's items whose counts are set from the stack through `permuted_id`: non-negative, worth the stack's value, at the stack's cost, and optimal over the caller's items when the stack is optimal over the sorted ones |
| UnboundedKnapsack.Solve | single-header/knapstack_solver.hpp:320-344 | for either estimate: the preprocessing satisfies `Preprocessed`; when no item fits every count is zero; otherwise the counts are exactly those the best stack of `Outcome` on the sorted items sets through `permuted_id`, worth its `best_value`; the counts are non-negative and within the budget; with the corrected estimate and non-negative values it is worth at least any count vector within the budget |

## Left out

- Floating point: `getRatio` and both `computeUpperBound`s compute in `double`. The model uses exact `real` ratios, so rounding is not modelled.
- Zero costs: `getRatio` returns the largest `double` for a zero cost, and the unbounded code divides by the cost. Every operation here requires positive costs.
- Integer width: `Value`, `Cost` and the `int` depths and counts are unbounded integers, so overflow is not modelled. Budgets are non-negative (a requirement of `solve`).
- Sort order among equal ratios: `ranges::sort` is not stable. `Preprocess` promises only some ratio-sorted arrangement of the kept pairs, and `SortByRatio` (an insertion sort) is one such arrangement. The engines are proved for every ratio-sorted list.
- The `Instance` class: the solvers take its item list and budget as parameters. Its setters and getters (`setBudget`, `addItem`, `getItems`, `operator[]`) are plain accessors and are not modelled.
- `isTaken` of both `Solution` classes is a plain accessor. `Solutions.Solution.IsTaken` and `Solutions.UnboundedSolution.IsTaken` are transparent functions (flag i; count i above zero) with no contract beyond their bodies.
- A `Solution` keeps a reference to its `Instance`. Here it keeps the item list as a constant field instead.
- `Solution::operator[]` hands out a reference into the flag or count vector. Aliased writes through it are not modelled.
- The `goto` control flow is modelled as a `Phase` state machine, one jump per `Step`. `std::stack` copying (`best_stack = stack`) is value assignment of a sequence.
- `src/knapstack_dp.cpp` (file checks, parsing, timing, printing and a dynamic-programming solver) is not part of this model.
- Knapsack01.IterativeBnb: optimality is stated only for items with non-negative values, because the ratio bound is not sound otherwise. For items (2,1), (-1,1), (-1,1) and budget 3, the search commits item 0, computes the bound 2 − 1 + 1·(−1) = 0 ≤ 0 at depth 1 and prunes; after the pop the bound −2 ≤ 0 prunes again, and the empty selection is returned, although item (2,1) alone is worth 2. The other contract clauses hold for all values.
- Knapsack01.Solve: optimality is stated only for non-negative values, for the same reason. For all values the solution is still the marks of the search's best stack, worth its `best_value`.
- UnboundedKnapsack.Solve: optimality is stated only for non-negative values and only with the corrected estimate; with the source's estimate it does not hold (see Findings).
- UnboundedKnapsack.IterativeBnb: optimality is stated only with the corrected estimate; with the source's estimate `UnboundedKnapsack.ChainedSearchMissesOptimum` shows a run that misses the optimum.
- UnboundedKnapsack.Step: the prune test evaluates the function `UnboundedUpperBound`, which `Bounds.ComputeUnboundedUpperBound` (the loop of lines 273-283) is proved to compute, because a function cannot call a method.
- The estimate parameter `e` of the unbounded engine is not in the source: `Chained` is the source's behaviour and `Relaxed` the correction of the second finding.

## Findings

| source | as written | input that shows it | evidently intended | confidence | as-written member | corrected member |
|---|---|---|---|---|---|---|
| include/knapstack/branch_and_bound.hpp:52-53 | after filtering, `goto begin` commits `sorted_items[0]` without checking that the list is non-empty (the same holds at single-header/knapstack_solver.hpp:162-163 and 304-305) | items [(5,10)] (value, cost), budget 3: the only item is filtered out and element 0 of an empty vector is read | return the empty solution when no item fits | high, not executed | Preprocessing.NothingFits | Knapsack01.Solve |
| single-header/knapstack_solver.hpp:273-283 | the unbounded estimate takes floor(b/cost) units of each item in turn and drops leftover budget, which is not an upper bound | items (11,7), (7,5), (4,3), budget 9: the search first records 11 (one unit of the first item), then at depth 1 the estimate is 11, so it prunes and returns 11 although three units of (4,3) are worth 12 | an upper bound on every completion of the node, so that pruning never removes a better solution | high, not executed | UnboundedKnapsack.ChainedSearchMissesOptimum | UnboundedKnapsack.IterativeBnb |

In the model, both `Solve` methods skip the search when preprocessing leaves no item. For the second finding, `Bounds.UnboundedUpperBoundUnderestimates` shows the estimate itself falling short at depth 1, and `UnboundedKnapsack.ChainedSearchMissesOptimum` runs the whole search as written to the suboptimal 11. The corrected estimate `RelaxedUnboundedBound`, the linear relaxation v + b·ratio(depth), is proved sound by `Bounds.RelaxedUnboundedBoundSound`. With it, `UnboundedKnapsack.IterativeBnb` and `UnboundedKnapsack.Solve` are proved optimal.

=== FILE: bounds.dfy ===
/**
  The upper-bound estimators used for pruning.

  `UpperBound` is the 0/1 estimator of BranchAndBound::computeUpperBound:
  walking the ratio-sorted items from `depth`, it takes every item whose cost
  is strictly below the remaining budget and, at the first item that does not
  fit that way, adds the remaining budget times that item's ratio. It is
  proved to be a sound bound: no selection of the items from `depth` on that
  fits the remaining budget is worth more.

  The unbounded estimator of UnboundedKnapstack::BranchAndBound is modelled as
  written (`UnboundedUpperBound`) together with a counterexample showing that
  it is not a bound, and a corrected relaxation (`RelaxedUnboundedBound`)
  with its soundness proof.
 */
module Bounds {
  import opened Items
  import opened Sums

  /** Item ratios do not increase from position `from` on. */
  predicate SortedFrom(items: seq<Item>, from: nat)
    requires PositiveCosts(items)
  {
    forall i, j {:trigger Ratio(items[i]), Ratio(items[j])} :: from <= i < j < |items| ==> Ratio(items[i]) >= Ratio(items[j])
  }

  /** Every item from position `from` on has ratio at most r. */
  predicate RatiosAtMost(items: seq<Item>, from: nat, r: real)
    requires PositiveCosts(items)
  {
    forall i {:trigger Ratio(items[i])} :: from <= i < |items| ==> Ratio(items[i]) <= r
  }

  /** In ratio order, no item from `from` on has a larger ratio than the item at `depth` <= `from`. */
  lemma SortedRatiosAtMost(items: seq<Item>, depth: nat, from: nat)
    requires PositiveCosts(items) && SortedFrom(items, depth) && depth <= from && depth < |items|
    ensures RatiosAtMost(items, from, Ratio(items[depth]))
  {
    forall i | from <= i < |items|
      ensures Ratio(items[i]) <= Ratio(items[depth])
    {
      if i > depth {
        assert Ratio(items[depth]) >= Ratio(items[i]);
      }
    }
  }

  // ================================================================ 0/1 bound

  /** The value computeUpperBound returns, as a function of its four arguments. */
  function UpperBound(items: seq<Item>, depth: nat, boundValue: int, budgetLeft: int): real
    requires PositiveCosts(items)
    decreases |items| - depth
  {
    if depth >= |items| then boundValue as real
    else if budgetLeft <= items[depth].cost then
      boundValue as real + budgetLeft as real * Ratio(items[depth])
    else
      UpperBound(items, depth + 1, boundValue + items[depth].value, budgetLeft - items[depth].cost)
  }

  /** computeUpperBound: the loop over `depth` that updates its three locals. */
  method ComputeUpperBound(items: seq<Item>, depth: nat, boundValue: int, budgetLeft: int)
    returns (r: real)
    requires PositiveCosts(items)
    ensures r == UpperBound(items, depth, boundValue, budgetLeft)
  {
    var d, v, b := depth, boundValue, budgetLeft;
    while d < |items|
      invariant depth <= d
      invariant UpperBound(items, d, v, b) == UpperBound(items, depth, boundValue, budgetLeft)
      decreases |items| - d
    {
      if b <= items[d].cost {
        return v as real + b as real * Ratio(items[d]);
      }
      b := b - items[d].cost;
      v := v + items[d].value;
      d := d + 1;
    }
    r := v as real;
  }

  /** a <= b and c >= 0 give a * c <= b * c. */
  lemma MulLeft(a: real, b: real, c: real)
    requires a <= b && c >= 0.0
    ensures a * c <= b * c
  {
    assert b * c - a * c == (b - a) * c;
  }

  /** An item's value is its ratio times its cost. */
  lemma RatioTimesCost(it: Item)
    requires it.cost > 0
    ensures Ratio(it) * it.cost as real == it.value as real
  {
  }

  /**
    With every ratio from lo on at most r, any selection from lo on is worth at
    most r times its cost.
   */
  lemma {:induction false} ValueAtMostRatioTimesCost(items: seq<Item>, x: seq<bool>, lo: nat, r: real)
    requires PositiveCosts(items) && |x| == |items| && RatiosAtMost(items, lo, r)
    ensures DotFrom(Values(items), x, lo) as real <= r * DotFrom(Costs(items), x, lo) as real
    decreases |items| - lo
  {
    if lo < |items| {
      ValueAtMostRatioTimesCost(items, x, lo + 1, r);
      var vRest, cRest := DotFrom(Values(items), x, lo + 1), DotFrom(Costs(items), x, lo + 1);
      if x[lo] {
        var it := items[lo];
        RatioTimesCost(it);
        MulLeft(Ratio(it), r, it.cost as real);
        assert (it.value + vRest) as real <= r * it.cost as real + r * cRest as real;
        assert r * it.cost as real + r * cRest as real == r * (it.cost + cRest) as real;
      }
    }
  }

  /** With no budget left the bound is the accumulated value. */
  lemma UpperBoundNoBudget(items: seq<Item>, depth: nat, boundValue: int)
    requires PositiveCosts(items)
    ensures UpperBound(items, depth, boundValue, 0) == boundValue as real
  {
  }

  /**
    The bound grows by at most r per unit of extra budget, when r bounds every
    ratio from `depth` on. This is where the ratio order matters: a whole item
    taken in place of a fraction never contributes more than r per unit.
   */
  lemma {:induction false} UpperBoundSlope(items: seq<Item>, depth: nat, v: int, b: int, b': int, r: real)
    requires PositiveCosts(items) && RatiosAtMost(items, depth, r) && r >= 0.0
    requires 0 <= b' <= b
    ensures UpperBound(items, depth, v, b) <= UpperBound(items, depth, v, b') + r * (b - b') as real
    decreases |items| - depth
  {
    if depth < |items| {
      var it := items[depth];
      var re := Ratio(it);
      if b <= it.cost {
        SlopeOfFraction(re, r, b as real, b' as real);
      } else if b' <= it.cost {
        UpperBoundSlope(items, depth + 1, v + it.value, b - it.cost, 0, r);
        UpperBoundNoBudget(items, depth + 1, v + it.value);
        RatioTimesCost(it);
        SlopeOfWhole(re, r, it.value as real, it.cost as real, b as real, b' as real);
        assert (b - it.cost) as real == b as real - it.cost as real;
      } else {
        UpperBoundSlope(items, depth + 1, v + it.value, b - it.cost, b' - it.cost, r);
      }
    }
  }

  /** A fraction at ratio re <= r: b * re <= b' * re + r * (b - b') for b' <= b. */
  lemma SlopeOfFraction(re: real, r: real, b: real, b': real)
    requires re <= r && b' <= b
    ensures b * re <= b' * re + r * (b - b')
  {
    MulLeft(re, r, b - b');
    assert b * re == b' * re + (b - b') * re;
  }

  /**
    A whole item of value re * c in place of a fraction b' <= c of it, with the
    rest of the budget at ratio r >= re, is worth at most the fraction plus r
    per unit of the extra budget.
   */
  lemma SlopeOfWhole(re: real, r: real, value: real, c: real, b: real, b': real)
    requires re <= r && b' <= c && value == re * c
    ensures value + r * (b - c) <= b' * re + r * (b - b')
  {
    MulLeft(re, r, c - b');
    assert value == re * b' + re * (c - b');
    assert r * (b - b') == r * (c - b') + r * (b - c);
  }

  /**
    Bound soundness (what licenses the pruning test): when the items from
    `depth` on are sorted by non-increasing ratio, costs are positive and values
    non-negative, every selection x whose items from `depth` on cost at most
    `budgetLeft` has value from `depth` on of at most UpperBound - boundValue.
   */
  lemma {:induction false} UpperBoundSound(items: seq<Item>, depth: nat, v: int, b: int, x: seq<bool>)
    requires PositiveCosts(items) && NonNegativeValues(items) && SortedFrom(items, depth)
    requires |x| == |items|
    requires DotFrom(Costs(items), x, depth) <= b
    ensures UpperBound(items, depth, v, b) >= v as real + DotFrom(Values(items), x, depth) as real
    decreases |items| - depth
  {
    if depth < |items| {
      var it := items[depth];
      if b <= it.cost {
        UpperBoundAtFraction(items, depth, v, b);
        ValueAtMostFirstRatio(items, x, depth);
        FractionCovers(v as real, DotFrom(Values(items), x, depth) as real, Ratio(items[depth]),
                       DotFrom(Costs(items), x, depth), b);
      } else if x[depth] {
        UpperBoundSound(items, depth + 1, v + it.value, b - it.cost, x);
      } else {
        UpperBoundSound(items, depth + 1, v + it.value, b, x);
        SoundWhenSkipped(items, depth, v, b, x);
      }
    }
  }

  /** In ratio order, a selection from `depth` on is worth at most the first ratio times its cost. */
  lemma ValueAtMostFirstRatio(items: seq<Item>, x: seq<bool>, depth: nat)
    requires PositiveCosts(items) && NonNegativeValues(items) && SortedFrom(items, depth)
    requires |x| == |items| && depth < |items|
    ensures Ratio(items[depth]) >= 0.0
    ensures DotFrom(Values(items), x, depth) as real <= Ratio(items[depth]) * DotFrom(Costs(items), x, depth) as real
  {
    RatioNonNegative(items[depth]);
    SortedRatiosAtMost(items, depth, depth);
    ValueAtMostRatioTimesCost(items, x, depth, Ratio(items[depth]));
  }

  /** Where the remaining budget is at most the item's cost, the bound stops with a fraction of it. */
  lemma UpperBoundAtFraction(items: seq<Item>, depth: nat, v: int, b: int)
    requires PositiveCosts(items) && depth < |items| && b <= items[depth].cost
    ensures UpperBound(items, depth, v, b) == v as real + b as real * Ratio(items[depth])
  {
  }

  /** A value at most re * c, with c <= b and re >= 0, is at most b * re. */
  lemma FractionCovers(v: real, value: real, re: real, c: int, b: int)
    requires re >= 0.0 && value <= re * c as real && c <= b
    ensures v + b as real * re >= v + value
  {
    MulLeft(c as real, b as real, re);
  }

  /**
    Soundness when the bound takes item `depth` whole but x leaves it out: the
    bound from depth + 1 with the full budget exceeds the bound taken by at
    most the item's own value.
   */
  lemma SoundWhenSkipped(items: seq<Item>, depth: nat, v: int, b: int, x: seq<bool>)
    requires PositiveCosts(items) && NonNegativeValues(items) && SortedFrom(items, depth)
    requires |x| == |items| && depth < |items| && b > items[depth].cost && !x[depth]
    requires UpperBound(items, depth + 1, v + items[depth].value, b)
          >= (v + items[depth].value) as real + DotFrom(Values(items), x, depth + 1) as real
    ensures UpperBound(items, depth, v, b) >= v as real + DotFrom(Values(items), x, depth) as real
  {
    var it := items[depth];
    var re := Ratio(it);
    RatioNonNegative(it);
    SortedRatiosAtMost(items, depth, depth + 1);
    UpperBoundSlope(items, depth + 1, v + it.value, b, b - it.cost, re);
    RatioTimesCost(it);
    assert re * (b - (b - it.cost)) as real == it.value as real;
  }

  /** A non-negative value over a positive cost gives a non-negative ratio. */
  lemma RatioNonNegative(it: Item)
    requires it.cost > 0 && it.value >= 0
    ensures Ratio(it) >= 0.0
  {
  }

  /** With non-negative values and budget the bound is never below the accumulated value. */
  lemma UpperBoundAtLeastValue(items: seq<Item>, depth: nat, v: int, b: int)
    requires PositiveCosts(items) && NonNegativeValues(items) && SortedFrom(items, depth) && b >= 0
    ensures UpperBound(items, depth, v, b) >= v as real
  {
    var none := seq(|items|, i => false);
    DotFromNone(Costs(items), none, depth);
    DotFromNone(Values(items), none, depth);
    UpperBoundSound(items, depth, v, b, none);
  }

  // ========================================================== unbounded bound

  /**
    The value UnboundedKnapstack's computeUpperBound returns, as written:
    from `depth` on it takes floor(budgetLeft / cost) units of every item
    whose cost is strictly below the remaining budget and, at the first item
    costing at least the remaining budget, adds the remaining budget times
    that item's ratio. Leftover budget after the last item is dropped.
   */
  function UnboundedUpperBound(items: seq<Item>, depth: nat, boundValue: int, budgetLeft: int): real
    requires PositiveCosts(items)
    decreases |items| - depth
  {
    if depth >= |items| then boundValue as real
    else if budgetLeft <= items[depth].cost then
      boundValue as real + budgetLeft as real * Ratio(items[depth])
    else
      var units := budgetLeft / items[depth].cost;
      UnboundedUpperBound(items, depth + 1, boundValue + units * items[depth].value,
                          budgetLeft - units * items[depth].cost)
  }

  /** The unbounded computeUpperBound loop, as written. */
  method ComputeUnboundedUpperBound(items: seq<Item>, depth: nat, boundValue: int, budgetLeft: int)
    returns (r: real)
    requires PositiveCosts(items)
    ensures r == UnboundedUpperBound(items, depth, boundValue, budgetLeft)
  {
    var d, v, b := depth, boundValue, budgetLeft;
    while d < |items|
      invariant depth <= d
      invariant UnboundedUpperBound(items, d, v, b) == UnboundedUpperBound(items, depth, boundValue, budgetLeft)
      decreases |items| - d
    {
      if b <= items[d].cost {
        return v as real + b as real * Ratio(items[d]);
      }
      var units := b / items[d].cost;
      b := b - units * items[d].cost;
      v := v + units * items[d].value;
      d := d + 1;
    }
    r := v as real;
  }

  /** With non-negative values and budget the unbounded estimate never drops below the accumulated value. */
  lemma {:induction false} UnboundedUpperBoundAtLeastValue(items: seq<Item>, depth: nat, v: int, b: int)
    requires PositiveCosts(items) && NonNegativeValues(items) && b >= 0
    ensures UnboundedUpperBound(items, depth, v, b) >= v as real
    decreases |items| - depth
  {
    if depth < |items| {
      var it := items[depth];
      RatioNonNegative(it);
      if b > it.cost {
        var units := b / it.cost;
        assert units >= 1 && units * it.value >= 0;
        assert b - units * it.cost >= 0;
        UnboundedUpperBoundAtLeastValue(items, depth + 1, v + units * it.value, b - units * it.cost);
      }
    }
  }

  /**
    The estimate as written is not an upper bound. With the items
    (11, 7), (7, 5), (4, 3) (value, cost), sorted by ratio, and 9 units of
    budget at depth 1 with nothing accumulated, it returns 11: one unit of
    (7, 5) leaves 4, one unit of (4, 3) leaves 1, and that 1 is dropped. Three
    units of (4, 3) cost 9 and are worth 12. The search compares 11 with an
    incumbent of 11 (one unit of the first item) and prunes the optimum.
   */
  lemma UnboundedUpperBoundUnderestimates()
    ensures var items := [Item(11, 7), Item(7, 5), Item(4, 3)];
      var counts := [0, 0, 3];
      PositiveCosts(items) && SortedFrom(items, 0) &&
      WeightedFrom(Costs(items), counts, 1) <= 9 &&
      UnboundedUpperBound(items, 1, 0, 9) == 11.0 &&
      WeightedFrom(Values(items), counts, 1) == 12
  {
    var items := [Item(11, 7), Item(7, 5), Item(4, 3)];
    var counts := [0, 0, 3];
    assert PositiveCosts(items);
    assert Ratio(items[0]) >= Ratio(items[1]) >= Ratio(items[2]);
    assert 9 / 5 == 1 && 4 / 3 == 1;
    assert UnboundedUpperBound(items, 3, 11, 1) == 11.0;
    assert UnboundedUpperBound(items, 2, 7, 4) == 11.0;
    assert WeightedFrom(Costs(items), counts, 3) == 0;
    assert WeightedFrom(Values(items), counts, 3) == 0;
  }

  /**
    The corrected estimate: the linear relaxation of the unbounded problem on
    the items from `depth` on, which spends the whole remaining budget at the
    best ratio among them (the ratio of item `depth`, the items being sorted).
   */
  function RelaxedUnboundedBound(items: seq<Item>, depth: nat, boundValue: int, budgetLeft: int): real
    requires PositiveCosts(items)
  {
    if depth >= |items| then boundValue as real
    else boundValue as real + budgetLeft as real * Ratio(items[depth])
  }

  /**
    With every ratio from lo on at most r, any take counts from lo on are
    worth at most r times their cost.
   */
  lemma {:induction false} WeightedAtMostRatioTimesCost(items: seq<Item>, m: seq<int>, lo: nat, r: real)
    requires PositiveCosts(items) && |m| == |items| && NonNegative(m) && RatiosAtMost(items, lo, r)
    ensures WeightedFrom(Values(items), m, lo) as real <= r * WeightedFrom(Costs(items), m, lo) as real
    decreases |items| - lo
  {
    if lo < |items| {
      WeightedAtMostRatioTimesCost(items, m, lo + 1, r);
      var it := items[lo];
      var vRest, cRest := WeightedFrom(Values(items), m, lo + 1), WeightedFrom(Costs(items), m, lo + 1);
      RatioTimesCost(it);
      MulLeft(Ratio(it), r, it.cost as real);
      MulLeft(Ratio(it) * it.cost as real, r * it.cost as real, m[lo] as real);
      assert (m[lo] * it.value) as real == m[lo] as real * it.value as real;
      assert (m[lo] * it.cost) as real == m[lo] as real * it.cost as real;
      assert (m[lo] * it.value + vRest) as real <= r * (m[lo] * it.cost) as real + r * cRest as real;
      assert r * (m[lo] * it.cost) as real + r * cRest as real == r * (m[lo] * it.cost + cRest) as real;
    }
  }

  /**
    Soundness of the corrected estimate: for items sorted by non-increasing
    ratio from `depth` on, with positive costs and non-negative values, any
    non-negative take counts whose cost from `depth` on fits `budgetLeft` are
    worth at most the estimate minus `boundValue`.
   */
  lemma RelaxedUnboundedBoundSound(items: seq<Item>, depth: nat, v: int, b: int, m: seq<int>)
    requires PositiveCosts(items) && NonNegativeValues(items) && SortedFrom(items, depth)
    requires |m| == |items| && NonNegative(m)
    requires WeightedFrom(Costs(items), m, depth) <= b
    ensures RelaxedUnboundedBound(items, depth, v, b) >= v as real + WeightedFrom(Values(items), m, depth) as real
  {
    if depth < |items| {
      RelaxedUnboundedBoundAt(items, depth, v, b);
      WeightedAtMostFirstRatio(items, m, depth);
      FractionCovers(v as real, WeightedFrom(Values(items), m, depth) as real, Ratio(items[depth]),
                     WeightedFrom(Costs(items), m, depth), b);
    } else {
      WeightedFromZero(Values(items), m, depth);
    }
  }

  /** Below the last item the corrected estimate is the value plus the budget at the ratio of the item at `depth`. */
  lemma RelaxedUnboundedBoundAt(items: seq<Item>, depth: nat, v: int, b: int)
    requires PositiveCosts(items) && depth < |items|
    ensures RelaxedUnboundedBound(items, depth, v, b) == v as real + b as real * Ratio(items[depth])
  {
  }

  /** In ratio order, take counts from `depth` on are worth at most the first ratio times their cost. */
  lemma WeightedAtMostFirstRatio(items: seq<Item>, m: seq<int>, depth: nat)
    requires PositiveCosts(items) && NonNegativeValues(items) && SortedFrom(items, depth)
    requires |m| == |items| && NonNegative(m) && depth < |items|
    ensures Ratio(items[depth]) >= 0.0
    ensures WeightedFrom(Values(items), m, depth) as real <= Ratio(items[depth]) * WeightedFrom(Costs(items), m, depth) as real
  {
    RatioNonNegative(items[depth]);
    SortedRatiosAtMost(items, depth, depth);
    WeightedAtMostRatioTimesCost(items, m, depth, Ratio(items[depth]));
  }

  /** With non-negative values and budget the corrected estimate is never below the accumulated value. */
  lemma RelaxedUnboundedBoundAtLeastValue(items: seq<Item>, depth: nat, v: int, b: int)
    requires PositiveCosts(items) && NonNegativeValues(items) && b >= 0
    ensures RelaxedUnboundedBound(items, depth, v, b) >= v as real
  {
    if depth < |items| {
      RatioNonNegative(items[depth]);
    }
  }
}

=== FILE: control.dfy ===
/**
  Where control is in an iterative_bnb loop. The source jumps with
  `goto begin` into the scan and `goto backtrack` out of it; the models run a
  loop over these three phases instead: Descend (the inner `for` scan over
  depths), Backtrack (the outer `while (!stack.empty())` body up to its pop)
  and Done (the stack is empty and the incumbent is returned).
 */
module Control {

  datatype Phase = Descend | Backtrack | Done

  /**
    The second component of the search loops' termination measure: a step
    that keeps the frontier may go from Backtrack to Descend or Done, never
    back.
   */
  function Rank(phase: Phase): nat
  {
    match phase
    case Descend => 1
    case Backtrack => 2
    case Done => 0
  }
}

=== FILE: items.dfy ===
/**
  Items of a knapsack instance and their efficiency ratio.

  An item is an immutable (value, cost) pair. The solver orders items by
  decreasing ratio value / cost; the ratio is modelled exactly as a `real`
  (the source computes it in floating point, see README). Zero-cost items are
  outside the model: every ratio is taken of an item whose cost is positive.
 */
module Items {

  datatype Item = Item(value: int, cost: int)

  /** Every cost is positive (the ratio is then defined and finite). */
  predicate PositiveCosts(items: seq<Item>)
  {
    forall i :: 0 <= i < |items| ==> items[i].cost > 0
  }

  /** No value is negative. */
  predicate NonNegativeValues(items: seq<Item>)
  {
    forall i :: 0 <= i < |items| ==> items[i].value >= 0
  }

  /** Item::getRatio for a positive cost, computed exactly. */
  function Ratio(it: Item): real
    requires it.cost > 0
  {
    it.value as real / it.cost as real
  }

  /**
    Item::operator<: `a` comes before `b` in the sorted order when its ratio is
    strictly greater. The ensures gives the same comparison by
    cross-multiplication of integers, with no division.
   */
  function Precedes(a: Item, b: Item): (r: bool)
    requires a.cost > 0 && b.cost > 0
    ensures r <==> a.value * b.cost > b.value * a.cost
  {
    RatioCrossMultiplication(a, b);
    Ratio(a) > Ratio(b)
  }

  /** value / cost compared by cross-multiplying with the two positive costs. */
  lemma RatioCrossMultiplication(a: Item, b: Item)
    requires a.cost > 0 && b.cost > 0
    ensures Ratio(a) > Ratio(b) <==> a.value * b.cost > b.value * a.cost
    ensures Ratio(a) >= Ratio(b) <==> a.value * b.cost >= b.value * a.cost
  {
    var ca, cb := a.cost as real, b.cost as real;
    var ra, rb := Ratio(a), Ratio(b);
    assert ra * ca == a.value as real;
    assert rb * cb == b.value as real;
    var p := ca * cb;
    assert p > 0.0;
    assert a.value as real * cb == ra * p;
    assert b.value as real * ca == rb * p;
    assert (a.value * b.cost) as real == ra * p;
    assert (b.value * a.cost) as real == rb * p;
    ScaleStrict(ra, rb, p);
  }

  /** Multiplying both sides by a positive real keeps both orderings. */
  lemma ScaleStrict(x: real, y: real, p: real)
    requires p > 0.0
    ensures x > y <==> x * p > y * p
    ensures x >= y <==> x * p >= y * p
  {
    if x > y {
      assert x * p - y * p == (x - y) * p;
    } else {
      assert y * p - x * p == (y - x) * p;
    }
  }

  /**
    Precedes is a strict weak ordering, as a sort comparator must be:
    irreflexive, transitive, and incomparability (equal ratios) is transitive.
   */
  lemma PrecedesIsStrictWeakOrder(a: Item, b: Item, c: Item)
    requires a.cost > 0 && b.cost > 0 && c.cost > 0
    ensures !Precedes(a, a)
    ensures Precedes(a, b) && Precedes(b, c) ==> Precedes(a, c)
    ensures !Precedes(a, b) && !Precedes(b, a) && !Precedes(b, c) && !Precedes(c, b)
            ==> !Precedes(a, c) && !Precedes(c, a)
  {
  }

  /** The item values, position by position. */
  function Values(items: seq<Item>): (w: seq<int>)
    ensures |w| == |items|
    ensures forall i :: 0 <= i < |items| ==> w[i] == items[i].value
  {
    seq(|items|, i requires 0 <= i < |items| => items[i].value)
  }

  /** The item costs, position by position. */
  function Costs(items: seq<Item>): (w: seq<int>)
    ensures |w| == |items|
    ensures forall i :: 0 <= i < |items| ==> w[i] == items[i].cost
  {
    seq(|items|, i requires 0 <= i < |items| => items[i].cost)
  }
}

=== FILE: knapsack01.dfy ===
/**
  The 0/1 search engine: Knapstack::BranchAndBound::iterative_bnb.

  The search runs over the ratio-sorted, filtered items. Its state is a stack
  of the depths taken (strictly increasing), the running value and remaining
  budget, the depth being scanned, and the incumbent (best value and the stack
  that reached it). The source's jumps `goto begin` / `goto backtrack` become
  a loop over three phases: Descend (the inner scan over depths), Backtrack
  (the outer `while (!stack.empty())` with its pop) and Done.

  The loop is proved to keep the stack sums equal to the running value and
  cost, to change the incumbent only on strict improvement at full depth, and
  (for sorted items with non-negative values) to return a selection of
  maximum value among all selections within the budget.
 */
module Knapsack01 {
  import opened Items
  import opened Sums
  import opened Bounds
  import opened SearchOrder
  import opened Control
  import opened Preprocessing
  import opened Solutions

  /** A decision stack: depths strictly increasing, all below n. */
  predicate IsStack(s: seq<int>, n: nat)
  {
    (forall k :: 0 <= k < |s| ==> 0 <= s[k] < n) &&
    (forall k, l :: 0 <= k < l < |s| ==> s[k] < s[l])
  }

  /** Every depth on the stack is below d. */
  predicate Below(s: seq<int>, d: nat)
  {
    forall k :: 0 <= k < |s| ==> s[k] < d
  }

  /** The sum of w over the stacked depths, accumulated push by push. */
  function StackSum(w: seq<int>, s: seq<int>): int
    requires forall k :: 0 <= k < |s| ==> 0 <= s[k] < |w|
  {
    if |s| == 0 then 0 else StackSum(w, s[..|s| - 1]) + w[s[|s| - 1]]
  }

  /** The selection a stack stands for: depth i is taken iff it is on the stack. */
  function Indicator(s: seq<int>, n: nat): (x: seq<bool>)
    ensures |x| == n
    ensures forall i :: 0 <= i < n ==> (x[i] <==> i in s)
  {
    seq(n, i => i in s)
  }

  /** The stack sum is the weight of the selection the stack stands for. */
  lemma {:induction false} StackSumIsDot(w: seq<int>, s: seq<int>)
    requires IsStack(s, |w|)
    ensures StackSum(w, s) == Dot(w, Indicator(s, |w|))
    decreases |s|
  {
    if |s| > 0 {
      var n := |w|;
      var s', t := s[..|s| - 1], s[|s| - 1];
      StackSumIsDot(w, s');
      var y' := Indicator(s', n);
      assert !y'[t];
      assert Indicator(s, n) == y'[t := true];
      DotFromSelect(w, y', t, 0);
      assert StackSum(w, s) == StackSum(w, s') + w[t];
      assert Dot(w, Indicator(s, n)) == DotFrom(w, y'[t := true], 0);
    } else {
      DotFromNone(w, Indicator(s, |w|), 0);
    }
  }

  // ------------------------------------------------------- search frontier

  /**
    How many leaves (in visiting order) the search has accounted for: those
    before the current node while descending, those up to the end of the
    current subtree while backtracking, all of them when done.
   */
  function Covered(phase: Phase, x: seq<bool>, d: nat): nat
    requires d <= |x|
  {
    match phase
    case Descend => Key(x, d)
    case Backtrack => Key(x, d) + Pow2(|x| - d)
    case Done => Pow2(|x|)
  }

  lemma CoveredAtMostAll(phase: Phase, x: seq<bool>, d: nat)
    requires d <= |x|
    ensures Covered(phase, x, d) <= Pow2(|x|)
  {
    KeyRange(x, 0, d);
  }

  /** Every selection within the budget among the first `frontier` leaves is worth at most `best`. */
  ghost predicate Dominated(items: seq<Item>, budget: int, best: int, frontier: nat)
  {
    forall x: seq<bool> ::
      |x| == |items| && Dot(Costs(items), x) <= budget && Key(x, |x|) < frontier
      ==> Dot(Values(items), x) <= best
  }

  /**
    Skipping an item that does not fit the remaining budget loses nothing:
    every leaf that takes it, with the current stack below it, is over budget.
   */
  lemma SkipStep(items: seq<Item>, budget: int, best: int, s: seq<int>, d: nat)
    requires PositiveCosts(items) && d < |items| && IsStack(s, |items|) && Below(s, d)
    requires budget - StackSum(Costs(items), s) < items[d].cost
    requires Dominated(items, budget, best, Key(Indicator(s, |items|), d))
    ensures Dominated(items, budget, best, Key(Indicator(s, |items|), d + 1))
  {
    var n := |items|;
    var y := Indicator(s, n);
    var z := y[d := true];
    KeyAgree(z, y, d);
    StackSumIsDot(Costs(items), s);
    forall x: seq<bool> | |x| == n && Dot(Costs(items), x) <= budget && Key(x, n) < Key(y, d + 1)
      ensures Dot(Values(items), x) <= best
    {
      if Key(x, n) >= Key(y, d) {
        KeyDeterminesPrefix(x, z, d + 1);
        DotFromSplit(Costs(items), x, y, 0, d);
        DotFromAtLeastMember(Costs(items), x, d, d);
        assert false;
      }
    }
  }

  /** Skipping depth d moves the frontier past the leaves that would take it. */
  lemma SkipKey(s: seq<int>, d: nat, n: nat)
    requires d < n && Below(s, d)
    ensures Key(Indicator(s, n), d + 1) == Key(Indicator(s, n), d) + Pow2(n - d - 1)
  {
    assert !Indicator(s, n)[d];
  }

  /**
    Pruning loses nothing: when the bound from depth d is at most the
    incumbent, no leaf below the current node is worth more than it.
   */
  lemma PruneStep(items: seq<Item>, budget: int, best: int, s: seq<int>, d: nat, v: int, b: int)
    requires PositiveCosts(items) && NonNegativeValues(items) && SortedFrom(items, 0)
    requires d <= |items| && IsStack(s, |items|) && Below(s, d)
    requires v == StackSum(Values(items), s) && b == budget - StackSum(Costs(items), s)
    requires UpperBound(items, d, v, b) <= best as real
    requires Dominated(items, budget, best, Key(Indicator(s, |items|), d))
    ensures Dominated(items, budget, best, Key(Indicator(s, |items|), d) + Pow2(|items| - d))
  {
    var n := |items|;
    var y := Indicator(s, n);
    StackSumIsDot(Costs(items), s);
    StackSumIsDot(Values(items), s);
    forall x: seq<bool> | |x| == n && Dot(Costs(items), x) <= budget && Key(x, n) < Key(y, d) + Pow2(n - d)
      ensures Dot(Values(items), x) <= best
    {
      if Key(x, n) >= Key(y, d) {
        KeyDeterminesPrefix(x, y, d);
        DotFromSplit(Costs(items), x, y, 0, d);
        DotFromSplit(Values(items), x, y, 0, d);
        UpperBoundSound(items, d, v, b, x);
      }
    }
  }

  /** Taking the item at depth d keeps the frontier where it is. */
  lemma TakeStep(s: seq<int>, d: nat, n: nat)
    requires d < n && IsStack(s, n) && Below(s, d)
    ensures IsStack(s + [d], n) && Below(s + [d], d + 1)
    ensures Key(Indicator(s + [d], n), d + 1) == Key(Indicator(s, n), d)
  {
    var y := Indicator(s, n);
    assert Indicator(s + [d], n) == y[d := true];
    KeyAgree(y[d := true], y, d);
  }

  /** At full depth the current selection y is the only leaf of its node. */
  lemma LeafStep(items: seq<Item>, budget: int, best: int, best': int, y: seq<bool>)
    requires |y| == |items| && best <= best' && Dot(Values(items), y) <= best'
    requires Dominated(items, budget, best, Key(y, |y|))
    ensures Dominated(items, budget, best', Key(y, |y|) + 1)
  {
    forall x: seq<bool> | |x| == |items| && Dot(Costs(items), x) <= budget && Key(x, |x|) < Key(y, |y|) + 1
      ensures Dot(Values(items), x) <= best'
    {
      if Key(x, |x|) >= Key(y, |y|) {
        KeyDeterminesLeaf(x, y);
      }
    }
  }

  /**
    Backtracking from the end of the current subtree to the sibling that skips
    the top depth t keeps the frontier where it is.
   */
  lemma PopStep(s: seq<int>, d: nat, n: nat)
    requires |s| > 0 && d <= n && IsStack(s, n) && Below(s, d)
    ensures IsStack(s[..|s| - 1], n) && Below(s[..|s| - 1], s[|s| - 1] + 1)
    ensures Key(Indicator(s, n), d) + Pow2(n - d)
         == Key(Indicator(s[..|s| - 1], n), s[|s| - 1] + 1)
  {
    var s', t := s[..|s| - 1], s[|s| - 1];
    var y, y' := Indicator(s, n), Indicator(s', n);
    assert y' == y[t := false];
    KeyGap(y, t + 1, d);
    KeyAgree(y', y, t);
  }

  /** With the stack empty the whole tree has been accounted for. */
  lemma EmptyStep(d: nat, n: nat)
    requires d <= n
    ensures Key(Indicator([], n), d) + Pow2(n - d) == Pow2(n)
  {
    KeyGap(Indicator([], n), 0, d);
  }

  // ------------------------------------------------------ search transitions

  /**
    The locals of iterative_bnb between two jumps: where the control is, the
    stack of depths taken, the depth being scanned, the running value and
    remaining budget, and the incumbent.
   */
  datatype Search = Search(phase: Phase, stack: seq<int>, depth: nat, value: int, budgetLeft: int,
                           bestStack: seq<int>, bestValue: int)

  /** The running state of a search node: the stack, its sums and the scan depth agree. */
  ghost predicate Node(items: seq<Item>, budget: int, s: Search)
  {
    PositiveCosts(items) && s.depth <= |items| && IsStack(s.stack, |items|) && Below(s.stack, s.depth) &&
    s.value == StackSum(Values(items), s.stack) &&
    s.budgetLeft == budget - StackSum(Costs(items), s.stack) && s.budgetLeft >= 0
  }

  /** The incumbent: a stack within the budget and its value. */
  ghost predicate Incumbent(items: seq<Item>, budget: int, s: Search)
  {
    IsStack(s.bestStack, |items|) && s.bestValue == StackSum(Values(items), s.bestStack) &&
    s.bestValue >= 0 && StackSum(Costs(items), s.bestStack) <= budget
  }

  /** What optimality needs of the items: sorted by ratio, positive costs, non-negative values. */
  ghost predicate Sound(items: seq<Item>)
  {
    PositiveCosts(items) && NonNegativeValues(items) && SortedFrom(items, 0)
  }

  /** The leaves the search has accounted for, in visiting order. */
  ghost function Frontier(n: nat, s: Search): nat
    requires s.depth <= n
  {
    Covered(s.phase, Indicator(s.stack, n), s.depth)
  }

  /** What every state of the search satisfies. */
  ghost predicate Invariant(items: seq<Item>, budget: int, s: Search)
  {
    Node(items, budget, s) && Incumbent(items, budget, s) &&
    Frontier(|items|, s) <= Pow2(|items|) &&
    (Sound(items) ==> Dominated(items, budget, s.bestValue, Frontier(|items|, s)))
  }

  /**
    One step moves the frontier forward, or keeps it and lowers the phase
    rank, or keeps both and scans deeper.
   */
  ghost predicate Advances(n: nat, s: Search, s': Search)
    requires s.depth <= n && s'.depth <= n
  {
    Frontier(n, s) < Frontier(n, s') ||
    (Frontier(n, s) == Frontier(n, s') &&
     (Rank(s'.phase) < Rank(s.phase) || (Rank(s'.phase) == Rank(s.phase) && s.depth < s'.depth)))
  }

  /** The state right after the root commit made by `goto begin`: item 0 taken, scan at depth 1. */
  function Root(items: seq<Item>, budget: int): (s: Search)
    requires |items| > 0
    ensures s.phase == Descend && s.stack == [0] && s.depth == 1 && s.bestStack == [] && s.bestValue == 0
    ensures s.value == items[0].value && s.budgetLeft == budget - items[0].cost
  {
    Search(Descend, [0], 1, items[0].value, budget - items[0].cost, [], 0)
  }

  lemma RootInvariant(items: seq<Item>, budget: int)
    requires |items| > 0 && PositiveCosts(items) && items[0].cost <= budget
    ensures Invariant(items, budget, Root(items, budget))
  {
    var n := |items|;
    var s := Root(items, budget);
    assert [0][..0] == [];
    var y := Indicator([0], n);
    assert y[0];
    assert Key(y, 1) == 0;
    CoveredAtMostAll(Descend, y, 1);
  }

  lemma SkipTransition(items: seq<Item>, budget: int, s: Search, s': Search)
    requires Invariant(items, budget, s) && s.phase == Descend && s.depth < |items|
    requires s.budgetLeft < items[s.depth].cost
    requires s' == s.(depth := s.depth + 1)
    ensures Invariant(items, budget, s') && Advances(|items|, s, s')
  {
    var n := |items|;
    SkipKey(s.stack, s.depth, n);
    CoveredAtMostAll(Descend, Indicator(s.stack, n), s.depth + 1);
    if Sound(items) {
      SkipStep(items, budget, s.bestValue, s.stack, s.depth);
    }
  }

  lemma PruneTransition(items: seq<Item>, budget: int, s: Search, s': Search)
    requires Invariant(items, budget, s) && s.phase == Descend && s.depth < |items|
    requires UpperBound(items, s.depth, s.value, s.budgetLeft) <= s.bestValue as real
    requires s' == s.(phase := Backtrack)
    ensures Invariant(items, budget, s') && Advances(|items|, s, s')
  {
    var n := |items|;
    var y := Indicator(s.stack, n);
    assert Frontier(n, s) == Key(y, s.depth);
    assert Frontier(n, s') == Key(y, s.depth) + Pow2(n - s.depth);
    CoveredAtMostAll(Backtrack, y, s.depth);
    assert Node(items, budget, s') && Incumbent(items, budget, s');
    if Sound(items) {
      assert Dominated(items, budget, s.bestValue, Key(y, s.depth));
      PruneStep(items, budget, s.bestValue, s.stack, s.depth, s.value, s.budgetLeft);
    }
  }

  lemma TakeTransition(items: seq<Item>, budget: int, s: Search, s': Search)
    requires Invariant(items, budget, s) && s.phase == Descend && s.depth < |items|
    requires items[s.depth].cost <= s.budgetLeft
    requires s' == s.(stack := s.stack + [s.depth], depth := s.depth + 1,
                      value := s.value + items[s.depth].value,
                      budgetLeft := s.budgetLeft - items[s.depth].cost)
    ensures Invariant(items, budget, s') && Advances(|items|, s, s')
  {
    TakeStep(s.stack, s.depth, |items|);
    assert (s.stack + [s.depth])[..|s.stack|] == s.stack;
  }

  lemma LeafTransition(items: seq<Item>, budget: int, s: Search, s': Search)
    requires Invariant(items, budget, s) && s.phase == Descend && s.depth == |items|
    requires s' == if s.value > s.bestValue
                   then s.(phase := Backtrack, bestStack := s.stack, bestValue := s.value)
                   else s.(phase := Backtrack)
    ensures Invariant(items, budget, s') && Advances(|items|, s, s')
  {
    var n := |items|;
    CoveredAtMostAll(Backtrack, Indicator(s.stack, n), n);
    if Sound(items) {
      StackSumIsDot(Values(items), s.stack);
      LeafStep(items, budget, s.bestValue, s'.bestValue, Indicator(s.stack, n));
    }
  }

  lemma PopTransition(items: seq<Item>, budget: int, s: Search, s': Search)
    requires Invariant(items, budget, s) && s.phase == Backtrack && |s.stack| > 0
    requires var top := s.stack[|s.stack| - 1];
      s' == s.(phase := Descend, stack := s.stack[..|s.stack| - 1], depth := top + 1,
               value := s.value - items[top].value, budgetLeft := s.budgetLeft + items[top].cost)
    ensures Invariant(items, budget, s') && Advances(|items|, s, s')
  {
    PopStep(s.stack, s.depth, |items|);
  }

  lemma EmptyTransition(items: seq<Item>, budget: int, s: Search, s': Search)
    requires Invariant(items, budget, s) && s.phase == Backtrack && |s.stack| == 0
    requires s' == s.(phase := Done)
    ensures Invariant(items, budget, s') && Advances(|items|, s, s')
  {
    EmptyStep(s.depth, |items|);
  }

  /**
    One jump of iterative_bnb. While descending at a depth below n: an item
    that does not fit is skipped; otherwise the bound is computed and either
    the search backtracks (bound at most the incumbent) or commits to the
    item. Descending at depth n, the incumbent is replaced on strict
    improvement, by the current stack, and the search backtracks; no other
    jump changes the incumbent. Backtracking pops the top depth and
    resumes the scan after it, or stops on an empty stack.
   */
  method Step(items: seq<Item>, budget: int, s: Search) returns (s': Search)
    requires Invariant(items, budget, s) && s.phase != Done
    ensures Invariant(items, budget, s') && Advances(|items|, s, s')
    ensures s.phase == Descend && s.depth == |items| && s.value > s.bestValue ==>
      s'.bestStack == s.stack && s'.bestValue == s.value
    ensures !(s.phase == Descend && s.depth == |items| && s.value > s.bestValue) ==>
      s'.bestStack == s.bestStack && s'.bestValue == s.bestValue
  {
    var n := |items|;
    if s.phase == Descend {
      if s.depth < n {
        var it := items[s.depth];
        if s.budgetLeft < it.cost {
          s' := s.(depth := s.depth + 1);
          SkipTransition(items, budget, s, s');
        } else {
          var bound := ComputeUpperBound(items, s.depth, s.value, s.budgetLeft);
          if bound <= s.bestValue as real {
            // goto backtrack
            s' := s.(phase := Backtrack);
            PruneTransition(items, budget, s, s');
          } else {
            // begin: commit to the item
            s' := s.(stack := s.stack + [s.depth], depth := s.depth + 1,
                     value := s.value + it.value, budgetLeft := s.budgetLeft - it.cost);
            TakeTransition(items, budget, s, s');
          }
        }
      } else {
        if s.value > s.bestValue {
          s' := s.(phase := Backtrack, bestStack := s.stack, bestValue := s.value);
        } else {
          s' := s.(phase := Backtrack);
        }
        LeafTransition(items, budget, s, s');
      }
    } else if |s.stack| == 0 {
      s' := s.(phase := Done);
      EmptyTransition(items, budget, s, s');
    } else {
      var top := s.stack[|s.stack| - 1];
      s' := s.(phase := Descend, stack := s.stack[..|s.stack| - 1], depth := top + 1,
               value := s.value - items[top].value, budgetLeft := s.budgetLeft + items[top].cost);
      PopTransition(items, budget, s, s');
    }
  }

  /**
    iterative_bnb. Requires at least one item, because the root commit
    (`goto begin` at depth 0) reads the first item without a size check, and
    every item to fit the budget, which is what makes that unchecked commit
    safe. Returns the best stack and its value.
   */
  method IterativeBnb(items: seq<Item>, budget: int) returns (bestStack: seq<int>, bestValue: int)
    requires |items| > 0 && PositiveCosts(items)
    requires forall i :: 0 <= i < |items| ==> items[i].cost <= budget
    ensures IsStack(bestStack, |items|)
    ensures bestValue == StackSum(Values(items), bestStack) >= 0
    ensures StackSum(Costs(items), bestStack) <= budget
    ensures NonNegativeValues(items) && SortedFrom(items, 0) ==>
      forall x: seq<bool> :: |x| == |items| && Dot(Costs(items), x) <= budget ==> Dot(Values(items), x) <= bestValue
  {
    var n := |items|;
    RootInvariant(items, budget);
    var s := Root(items, budget);
    while s.phase != Done
      invariant Invariant(items, budget, s)
      decreases Pow2(n) - Frontier(n, s), Rank(s.phase), n - s.depth
    {
      s := Step(items, budget, s);
    }
    bestStack, bestValue := s.bestStack, s.bestValue;
    forall x: seq<bool> | Sound(items) && |x| == n && Dot(Costs(items), x) <= budget
      ensures Dot(Values(items), x) <= bestValue
    {
      KeyBelowPow2(x);
    }
  }

  // ------------------------------------------------------------------ solve

  /**
    A selection over the caller's items that only uses indices in `ids` has
    the same value and cost as the selection it induces on the sorted items.
   */
  lemma Reindex(items: seq<Item>, sorted: seq<Item>, ids: seq<nat>, x: seq<bool>)
    requires |x| == |items| && |sorted| == |ids| && DistinctIndices(ids, |items|)
    requires forall k :: 0 <= k < |ids| ==> sorted[k] == items[ids[k]]
    requires forall i :: 0 <= i < |x| && x[i] ==> i in ids
    ensures Dot(Values(items), x) == Dot(Values(sorted), Pull(x, ids))
    ensures Dot(Costs(items), x) == Dot(Costs(sorted), Pull(x, ids))
  {
    var y := Pull(x, ids);
    assert Pull(Counts(x), ids) == Counts(y);
    DotFromIsWeighted(Values(items), x, 0);
    DotFromIsWeighted(Values(sorted), y, 0);
    WeightedReindex(Values(items), Counts(x), Values(sorted), ids);
    DotFromIsWeighted(Costs(items), x, 0);
    DotFromIsWeighted(Costs(sorted), y, 0);
    WeightedReindex(Costs(items), Counts(x), Costs(sorted), ids);
  }

  /** Within the budget, a selection only uses items that fit the budget on their own. */
  lemma SelectedItemsFit(items: seq<Item>, budget: int, x: seq<bool>, i: nat)
    requires PositiveCosts(items) && |x| == |items| && Dot(Costs(items), x) <= budget
    requires i < |x| && x[i]
    ensures items[i].cost <= budget
  {
    DotFromAtLeastMember(Costs(items), x, 0, i);
  }

  /**
    What the pop loop of solve leaves in the solution: the original index of
    every depth on the stack is taken, and nothing else.
   */
  ghost predicate Marks(ids: seq<nat>, stack: seq<int>, taken: seq<bool>)
  {
    (forall d :: 0 <= d < |ids| ==> ids[d] < |taken| && (taken[ids[d]] <==> d in stack)) &&
    (forall i :: 0 <= i < |taken| && i !in ids ==> !taken[i])
  }

  /** The pop loop of solve: `add` the original index of each depth, top first. */
  method MarkTaken(solution: Solution, ids: seq<nat>, bestStack: seq<int>)
    requires solution.Valid() && DistinctIndices(ids, |solution.items|)
    requires forall i :: 0 <= i < |solution.items| ==> !solution.taken[i]
    requires IsStack(bestStack, |ids|)
    modifies solution
    ensures solution.Valid()
    ensures Marks(ids, bestStack, solution.taken)
  {
    var stack := bestStack;
    while |stack| > 0
      invariant solution.Valid()
      invariant |stack| <= |bestStack| && stack == bestStack[..|stack|]
      invariant forall d :: 0 <= d < |ids| ==> (solution.taken[ids[d]] <==> d in bestStack[|stack|..])
      invariant forall i :: 0 <= i < |solution.items| && i !in ids ==> !solution.taken[i]
    {
      var top := stack[|stack| - 1];
      solution.Add(ids[top]);
      assert bestStack[|stack| - 1..] == [top] + bestStack[|stack|..];
      stack := stack[..|stack| - 1];
    }
    assert bestStack[0..] == bestStack;
  }

  /**
    The marked solution is worth the stack's value and costs the stack's
    cost; and when the stack was optimal over the sorted fitting items, the
    solution is optimal over all selections of the caller's items.
   */
  lemma MarkedSolution(items: seq<Item>, budget: int, sorted: seq<Item>, ids: seq<nat>,
                       bestStack: seq<int>, taken: seq<bool>)
    requires PositiveCosts(items) && |sorted| == |ids| && |taken| == |items|
    requires forall k :: 0 <= k < |ids| ==> ids[k] < |items| && sorted[k] == items[ids[k]]
    requires DistinctIndices(ids, |items|)
    requires forall i :: 0 <= i < |items| ==> (i in ids <==> items[i].cost <= budget)
    requires IsStack(bestStack, |sorted|) && Marks(ids, bestStack, taken)
    ensures Dot(Values(items), taken) == StackSum(Values(sorted), bestStack)
    ensures Dot(Costs(items), taken) == StackSum(Costs(sorted), bestStack)
    ensures (forall x: seq<bool> :: |x| == |sorted| && Dot(Costs(sorted), x) <= budget ==>
               Dot(Values(sorted), x) <= StackSum(Values(sorted), bestStack))
        ==> (forall x: seq<bool> :: |x| == |items| && Dot(Costs(items), x) <= budget ==>
               Dot(Values(items), x) <= Dot(Values(items), taken))
  {
    assert Pull(taken, ids) == Indicator(bestStack, |sorted|);
    Reindex(items, sorted, ids, taken);
    StackSumIsDot(Values(sorted), bestStack);
    StackSumIsDot(Costs(sorted), bestStack);
    forall x: seq<bool> | |x| == |items| && Dot(Costs(items), x) <= budget
      ensures Dot(Costs(sorted), Pull(x, ids)) <= budget
      ensures Dot(Values(items), x) == Dot(Values(sorted), Pull(x, ids))
    {
      forall i | 0 <= i < |x| && x[i]
        ensures i in ids
      {
        SelectedItemsFit(items, budget, x, i);
      }
      Reindex(items, sorted, ids, x);
    }
  }

  /**
    solve. Preprocesses the items, runs the search on the sorted fitting
    items, then pops the winning stack and marks as taken the original index
    of every depth on it. The ghost outputs are the preprocessed items and
    indices and the winning stack. The result marks exactly that stack, is
    worth its value (at least 0) and is within the budget; when no value is
    negative, it is worth at least as much as any selection within the budget.

    When no item fits, the source still commits the first sorted item, which
    does not exist; the model returns the empty solution instead.
   */
  method Solve(items: seq<Item>, budget: int)
    returns (solution: Solution, ghost sorted: seq<Item>, ghost ids: seq<nat>, ghost bestStack: seq<int>)
    requires PositiveCosts(items) && budget >= 0
    ensures fresh(solution) && solution.Valid() && solution.items == items
    ensures Preprocessed(items, budget, sorted, ids)
    ensures IsStack(bestStack, |sorted|) && (|sorted| == 0 ==> bestStack == [])
    ensures Marks(ids, bestStack, solution.taken)
    ensures Dot(Values(items), solution.taken) == StackSum(Values(sorted), bestStack) >= 0
    ensures Dot(Costs(items), solution.taken) == StackSum(Costs(sorted), bestStack) <= budget
    ensures NonNegativeValues(items) ==>
      forall x: seq<bool> :: |x| == |items| && Dot(Costs(items), x) <= budget ==>
        Dot(Values(items), x) <= Dot(Values(items), solution.taken)
  {
    var sortedItems, permutedId := Preprocess(items, budget);
    sorted, ids := sortedItems, permutedId;
    var stack: seq<int> := [];
    if |sortedItems| > 0 {
      var bestValue;
      stack, bestValue := IterativeBnb(sortedItems, budget);
    } else {
      forall x: seq<bool> | |x| == 0
        ensures Dot(Values(sortedItems), x) <= StackSum(Values(sortedItems), stack)
      {
      }
    }
    bestStack := stack;
    solution := new Solution(items);
    MarkTaken(solution, permutedId, stack);
    MarkedSolution(items, budget, sortedItems, permutedId, stack, solution.taken);
  }
}

=== FILE: preprocess.dfy ===
/**
  Preprocessing shared by both solvers (the first half of `solve`).

  The items are zipped with their positions in the caller's list. Every pair
  whose item costs more than the budget is removed, keeping the others in
  their original order (remove_if followed by erase), and the remaining pairs
  are sorted by non-increasing ratio. The result is two parallel sequences:
  the sorted items and, at each position, the original index of that item.

  The sort is specified as any arrangement of the kept pairs in ratio order;
  `SortByRatio` is one such arrangement (an insertion sort). The source's sort
  is not stable, so the order among equal ratios is unspecified there.
 */
module Preprocessing {
  import opened Items
  import opened Sums
  import opened Bounds

  /** An item together with its index in the caller's list. */
  datatype Entry = Entry(item: Item, id: nat)

  predicate AllPositive(es: seq<Entry>)
  {
    forall x :: x in es ==> x.item.cost > 0
  }

  /** Ratios do not increase from one entry to the next. */
  predicate SortedByRatio(es: seq<Entry>)
    requires AllPositive(es)
  {
    forall k :: 0 < k < |es| ==> Ratio(es[k - 1].item) >= Ratio(es[k].item)
  }

  /** No index appears twice. */
  predicate DistinctIds(es: seq<Entry>)
  {
    forall k, l :: 0 <= k < l < |es| ==> es[k].id != es[l].id
  }

  /** Every entry carries the caller's item at its index. */
  predicate Tagged(items: seq<Item>, es: seq<Entry>)
  {
    forall k :: 0 <= k < |es| ==> es[k].id < |items| && es[k].item == items[es[k].id]
  }

  function ItemsOf(es: seq<Entry>): (r: seq<Item>)
    ensures |r| == |es|
    ensures forall k :: 0 <= k < |es| ==> r[k] == es[k].item
  {
    seq(|es|, k requires 0 <= k < |es| => es[k].item)
  }

  function IdsOf(es: seq<Entry>): (r: seq<nat>)
    ensures |r| == |es|
    ensures forall k :: 0 <= k < |es| ==> r[k] == es[k].id
  {
    seq(|es|, k requires 0 <= k < |es| => es[k].id)
  }

  /** Places e before the first entry whose ratio is not strictly greater than e's. */
  function Insert(e: Entry, es: seq<Entry>): (r: seq<Entry>)
    requires e.item.cost > 0 && AllPositive(es)
    ensures multiset(r) == multiset(es) + multiset{e}
  {
    if |es| == 0 || !Precedes(es[0].item, e.item) then [e] + es
    else
      assert es == [es[0]] + es[1..];
      [es[0]] + Insert(e, es[1..])
  }

  /** Insert only adds e. */
  lemma InsertMembers(e: Entry, es: seq<Entry>)
    requires e.item.cost > 0 && AllPositive(es)
    ensures forall x :: x in Insert(e, es) <==> x == e || x in es
  {
    var r := Insert(e, es);
    forall x
      ensures x in r <==> x == e || x in es
    {
      assert x in r <==> x in multiset(r);
      assert x in es <==> x in multiset(es);
    }
  }

  /** Inserting into a ratio-sorted sequence keeps it sorted. */
  lemma {:induction false} InsertSorted(e: Entry, es: seq<Entry>)
    requires e.item.cost > 0 && AllPositive(es) && SortedByRatio(es)
    ensures AllPositive(Insert(e, es)) && SortedByRatio(Insert(e, es))
  {
    InsertMembers(e, es);
    var r := Insert(e, es);
    if |es| > 0 && Precedes(es[0].item, e.item) {
      var rest := es[1..];
      assert es == [es[0]] + rest;
      InsertSorted(e, rest);
      var r' := Insert(e, rest);
      assert r == [es[0]] + r';
      assert r'[0] == e || r'[0] == es[1] by {
        if |rest| == 0 || !Precedes(rest[0].item, e.item) {
          assert r' == [e] + rest;
        } else {
          assert r' == [rest[0]] + Insert(e, rest[1..]);
        }
      }
      RatioCrossMultiplication(es[0].item, e.item);
      assert Ratio(r[0].item) >= Ratio(r[1].item);
      forall k | 1 < k < |r|
        ensures Ratio(r[k - 1].item) >= Ratio(r[k].item)
      {
        assert r[k - 1] == r'[k - 2] && r[k] == r'[k - 1];
      }
    } else {
      assert r == [e] + es;
      if |es| > 0 {
        RatioCrossMultiplication(es[0].item, e.item);
        assert Ratio(r[0].item) >= Ratio(r[1].item);
      }
      forall k | 1 < k < |r|
        ensures Ratio(r[k - 1].item) >= Ratio(r[k].item)
      {
        assert r[k - 1] == es[k - 2] && r[k] == es[k - 1];
      }
    }
  }

  /** A ratio-sorted permutation of its input (an insertion sort). */
  function SortByRatio(es: seq<Entry>): (r: seq<Entry>)
    requires AllPositive(es)
    ensures multiset(r) == multiset(es)
    ensures AllPositive(r) && SortedByRatio(r)
  {
    if |es| == 0 then []
    else
      assert es == [es[0]] + es[1..];
      var rest := SortByRatio(es[1..]);
      InsertSorted(es[0], rest);
      Insert(es[0], rest)
  }

  /** Adjacent order gives order between any two positions. */
  lemma {:induction false} SortedByRatioPairs(es: seq<Entry>, k: nat, l: nat)
    requires AllPositive(es) && SortedByRatio(es) && k <= l < |es|
    ensures Ratio(es[k].item) >= Ratio(es[l].item)
    decreases l - k
  {
    if k < l {
      SortedByRatioPairs(es, k, l - 1);
    }
  }

  /** A value at two positions occurs at least twice. */
  lemma RepeatedValue(s: seq<Entry>, k: nat, l: nat)
    requires k < l < |s| && s[k] == s[l]
    ensures multiset(s)[s[k]] >= 2
  {
    assert s == s[..l] + [s[l]] + s[l + 1..];
    assert s[k] in s[..l];
  }

  /** Strictly increasing indices: no entry occurs twice. */
  lemma {:induction false} IncreasingIdsOnce(s: seq<Entry>, v: Entry)
    requires forall k, l :: 0 <= k < l < |s| ==> s[k].id < s[l].id
    ensures multiset(s)[v] <= 1
    decreases |s|
  {
    if |s| > 0 {
      var init := s[..|s| - 1];
      assert s == init + [s[|s| - 1]];
      IncreasingIdsOnce(init, v);
      if s[|s| - 1] == v {
        assert v !in init;
      }
    }
  }

  /** Fitting pairs of `items` in their original order: what remove_if and erase leave. */
  predicate Kept(items: seq<Item>, budget: int, kept: seq<Entry>)
  {
    Tagged(items, kept) &&
    (forall k :: 0 <= k < |kept| ==> kept[k].item.cost <= budget) &&
    (forall k, l :: 0 <= k < l < |kept| ==> kept[k].id < kept[l].id) &&
    (forall j :: 0 <= j < |items| && items[j].cost <= budget ==> Entry(items[j], j) in kept)
  }

  /**
    remove_if over the pairs (item, index), then erase: keeps, in order, every
    pair whose item costs at most the budget, and no other.
   */
  method KeepFitting(items: seq<Item>, budget: int) returns (kept: seq<Entry>)
    ensures Kept(items, budget, kept)
  {
    kept := [];
    for i := 0 to |items|
      invariant Tagged(items, kept)
      invariant forall k :: 0 <= k < |kept| ==> kept[k].id < i && kept[k].item.cost <= budget
      invariant forall k, l :: 0 <= k < l < |kept| ==> kept[k].id < kept[l].id
      invariant forall j :: 0 <= j < i && items[j].cost <= budget ==> Entry(items[j], j) in kept
    {
      if items[i].cost <= budget {
        kept := kept + [Entry(items[i], i)];
      }
    }
  }

  /** Each fitting index is kept exactly once, paired with its own item. */
  lemma KeptIndices(items: seq<Item>, budget: int, kept: seq<Entry>, entries: seq<Entry>)
    requires Kept(items, budget, kept) && multiset(entries) == multiset(kept)
    ensures forall k :: 0 <= k < |entries| ==> entries[k] in kept
    ensures DistinctIndices(IdsOf(entries), |items|)
    ensures forall i :: 0 <= i < |items| ==> (i in IdsOf(entries) <==> items[i].cost <= budget)
  {
    var ids := IdsOf(entries);
    forall k | 0 <= k < |entries|
      ensures entries[k] in kept
    {
      assert entries[k] in multiset(entries);
    }
    forall k, l | 0 <= k < l < |ids|
      ensures ids[k] != ids[l]
    {
      if ids[k] == ids[l] {
        assert entries[k] == entries[l];
        RepeatedValue(entries, k, l);
        IncreasingIdsOnce(kept, entries[k]);
        assert false;
      }
    }
    forall i | 0 <= i < |items| && items[i].cost <= budget
      ensures i in ids
    {
      assert Entry(items[i], i) in multiset(entries);
      var l :| 0 <= l < |entries| && entries[l] == Entry(items[i], i);
      assert ids[l] == i;
    }
  }

  /**
    What preprocessing delivers: the items that fit the budget, in ratio
    order, and for each position the index that item had in `items`. Exactly
    the fitting indices appear, each once, and every position carries the
    item found at its index.
   */
  ghost predicate Preprocessed(items: seq<Item>, budget: int, sorted: seq<Item>, ids: seq<nat>)
  {
    |sorted| == |ids| &&
    (forall k :: 0 <= k < |ids| ==> ids[k] < |items| && sorted[k] == items[ids[k]]) &&
    DistinctIndices(ids, |items|) &&
    (forall i :: 0 <= i < |items| ==> (i in ids <==> items[i].cost <= budget)) &&
    PositiveCosts(sorted) && SortedFrom(sorted, 0)
  }

  /** Preprocessing of `solve`: filter, then sort by ratio. */
  method Preprocess(items: seq<Item>, budget: int) returns (sorted: seq<Item>, ids: seq<nat>)
    requires PositiveCosts(items)
    ensures Preprocessed(items, budget, sorted, ids)
  {
    var kept := KeepFitting(items, budget);
    assert AllPositive(kept);
    var entries := SortByRatio(kept);
    KeptIndices(items, budget, kept, entries);
    sorted, ids := ItemsOf(entries), IdsOf(entries);
    forall k, l | 0 <= k < l < |sorted|
      ensures Ratio(sorted[k]) >= Ratio(sorted[l])
    {
      SortedByRatioPairs(entries, k, l);
    }
  }

  /** The first sorted item fits the budget on its own. */
  lemma FirstFits(items: seq<Item>, budget: int, sorted: seq<Item>, ids: seq<nat>)
    requires Preprocessed(items, budget, sorted, ids) && |sorted| > 0
    ensures sorted[0].cost <= budget
  {
    assert ids[0] in ids;
  }

  /** Every sorted item fits the budget on its own, and keeps its value's sign. */
  lemma SortedFits(items: seq<Item>, budget: int, sorted: seq<Item>, ids: seq<nat>)
    requires Preprocessed(items, budget, sorted, ids)
    ensures forall i :: 0 <= i < |sorted| ==> sorted[i].cost <= budget
    ensures NonNegativeValues(items) ==> NonNegativeValues(sorted)
  {
    forall i | 0 <= i < |sorted|
      ensures sorted[i].cost <= budget
    {
      assert ids[i] in ids;
    }
  }

  /**
    When no item fits the budget on its own, preprocessing leaves nothing:
    the search that follows would start from the first sorted item of an
    empty list.
   */
  lemma NothingFits(items: seq<Item>, budget: int, sorted: seq<Item>, ids: seq<nat>)
    requires Preprocessed(items, budget, sorted, ids)
    requires forall i :: 0 <= i < |items| ==> items[i].cost > budget
    ensures sorted == [] && ids == []
  {
    if |sorted| > 0 {
      FirstFits(items, budget, sorted, ids);
      assert false;
    }
  }
}

=== FILE: search_order.dfy ===
/**
  The order in which the 0/1 depth-first search visits selections.

  A node of the search is a decision prefix: for every depth i < d, whether
  item i is taken. The search tries "take" before "skip" at every depth, so
  the leaves (full selections x) are visited in increasing order of
      Key(x, n) = sum over the skipped depths i of 2^(n-1-i).
  The leaves below a node (x, d) are exactly those whose key lies in
  [Key(x, d), Key(x, d) + 2^(n-d)). These facts give both the termination
  measure of the search loop and the set of selections it has already
  accounted for.
 */
module SearchOrder {

  function Pow2(k: nat): (p: nat)
    ensures p >= 1
  {
    if k == 0 then 1 else 2 * Pow2(k - 1)
  }

  /** Sum of 2^(|x|-1-i) over the skipped depths i < d. */
  function Key(x: seq<bool>, d: nat): nat
    requires d <= |x|
  {
    if d == 0 then 0 else Key(x, d - 1) + (if x[d - 1] then 0 else Pow2(|x| - d))
  }

  /** Deeper prefixes only add, and never more than the skipped-everything amount. */
  lemma {:induction false} KeyRange(x: seq<bool>, a: nat, d: nat)
    requires a <= d <= |x|
    ensures Key(x, a) <= Key(x, d) <= Key(x, a) + Pow2(|x| - a) - Pow2(|x| - d)
    decreases d - a
  {
    if a < d {
      KeyRange(x, a, d - 1);
      assert Pow2(|x| - (d - 1)) == 2 * Pow2(|x| - d);
    }
  }

  /** Every key of a full selection is below 2^n. */
  lemma KeyBelowPow2(x: seq<bool>)
    ensures Key(x, |x|) < Pow2(|x|)
  {
    KeyRange(x, 0, |x|);
  }

  /** Skipping every depth in [a, d) adds 2^(n-a) - 2^(n-d). */
  lemma {:induction false} KeyGap(x: seq<bool>, a: nat, d: nat)
    requires a <= d <= |x|
    requires forall i :: a <= i < d ==> !x[i]
    ensures Key(x, d) == Key(x, a) + Pow2(|x| - a) - Pow2(|x| - d)
    decreases d - a
  {
    if a < d {
      KeyGap(x, a, d - 1);
      assert Pow2(|x| - (d - 1)) == 2 * Pow2(|x| - d);
    }
  }

  /** The key of a prefix only depends on the decisions in that prefix. */
  lemma {:induction false} KeyAgree(x: seq<bool>, y: seq<bool>, d: nat)
    requires |x| == |y| && d <= |x|
    requires forall i :: 0 <= i < d ==> x[i] == y[i]
    ensures Key(x, d) == Key(y, d)
  {
    if d > 0 {
      KeyAgree(x, y, d - 1);
    }
  }

  /**
    A full selection x whose key lies in the key range of the node (y, d)
    makes the same decisions as y at every depth below d: it is a leaf of
    that node's subtree.
   */
  lemma {:induction false} KeyDeterminesPrefix(x: seq<bool>, y: seq<bool>, d: nat)
    requires |x| == |y| && d <= |x|
    requires Key(y, d) <= Key(x, |x|) < Key(y, d) + Pow2(|x| - d)
    ensures forall i :: 0 <= i < d ==> x[i] == y[i]
  {
    if d > 0 {
      var n := |x|;
      var p := Pow2(n - d);
      assert Pow2(n - (d - 1)) == 2 * p;
      KeyDeterminesPrefix(x, y, d - 1);
      KeyAgree(x, y, d - 1);
      KeyRange(x, d, n);
      assert Pow2(0) == 1;
    }
  }

  /** Full selections with the same key are the same selection. */
  lemma KeyDeterminesLeaf(x: seq<bool>, y: seq<bool>)
    requires |x| == |y| && Key(x, |x|) == Key(y, |y|)
    ensures x == y
  {
    assert Pow2(0) == 1;
    KeyDeterminesPrefix(x, y, |x|);
  }
}

=== FILE: solution.dfy ===
/**
  The solutions the solvers return: Knapstack::Solution records for every item
  of the instance whether it is taken, UnboundedKnapstack::Solution how many
  units of it are taken. Both compute their value and cost by a loop over the
  instance's items.

  The source keeps a reference to the instance; here a solution keeps the
  instance's item list as a constant.
 */
module Solutions {
  import opened Items
  import opened Sums

  /** Knapstack::Solution: one taken flag per item of the instance. */
  class Solution {
    const items: seq<Item>
    var taken: seq<bool>

    ghost predicate Valid()
      reads this
    {
      |taken| == |items|
    }

    /** A new solution takes nothing. */
    constructor(items: seq<Item>)
      ensures this.items == items && Valid()
      ensures forall i :: 0 <= i < |items| ==> !taken[i]
    {
      this.items := items;
      taken := seq(|items|, i => false);
    }

    method Add(i: nat)
      requires Valid() && i < |items|
      modifies this
      ensures Valid() && taken == old(taken)[i := true]
    {
      taken := taken[i := true];
    }

    method Set(i: nat, b: bool)
      requires Valid() && i < |items|
      modifies this
      ensures Valid() && taken == old(taken)[i := b]
    {
      taken := taken[i := b];
    }

    method Remove(i: nat)
      requires Valid() && i < |items|
      modifies this
      ensures Valid() && taken == old(taken)[i := false]
    {
      taken := taken[i := false];
    }

    function IsTaken(i: nat): (r: bool)
      requires Valid() && i < |items|
      reads this
    {
      taken[i]
    }

    /** getValue: the total value of the taken items. */
    method GetValue() returns (sum: int)
      requires Valid()
      ensures sum == Dot(Values(items), taken)
    {
      var w := Values(items);
      sum := 0;
      for i := 0 to |items|
        invariant sum + DotFrom(w, taken, i) == Dot(w, taken)
      {
        if taken[i] {
          sum := sum + items[i].value;
        }
      }
    }

    /** getCost: the total cost of the taken items. */
    method GetCost() returns (sum: int)
      requires Valid()
      ensures sum == Dot(Costs(items), taken)
    {
      var w := Costs(items);
      sum := 0;
      for i := 0 to |items|
        invariant sum + DotFrom(w, taken, i) == Dot(w, taken)
      {
        if taken[i] {
          sum := sum + items[i].cost;
        }
      }
    }
  }

  /** UnboundedKnapstack::Solution: a count of taken units per item of the instance. */
  class UnboundedSolution {
    const items: seq<Item>
    var counts: seq<int>

    ghost predicate Valid()
      reads this
    {
      |counts| == |items|
    }

    /** A new solution takes no unit of anything. */
    constructor(items: seq<Item>)
      ensures this.items == items && Valid()
      ensures forall i :: 0 <= i < |items| ==> counts[i] == 0
    {
      this.items := items;
      counts := seq(|items|, i => 0);
    }

    /** add: one more unit of item i. */
    method Add(i: nat)
      requires Valid() && i < |items|
      modifies this
      ensures Valid() && counts == old(counts)[i := old(counts)[i] + 1]
    {
      counts := counts[i := counts[i] + 1];
    }

    method Set(i: nat, n: int)
      requires Valid() && i < |items|
      modifies this
      ensures Valid() && counts == old(counts)[i := n]
    {
      counts := counts[i := n];
    }

    method Remove(i: nat)
      requires Valid() && i < |items|
      modifies this
      ensures Valid() && counts == old(counts)[i := 0]
    {
      counts := counts[i := 0];
    }

    /** An item is taken when at least one unit of it is. */
    function IsTaken(i: nat): (r: bool)
      requires Valid() && i < |items|
      reads this
    {
      counts[i] > 0
    }

    /** getValue: units times value, summed over the items. */
    method GetValue() returns (sum: int)
      requires Valid()
      ensures sum == Weighted(Values(items), counts)
    {
      var w := Values(items);
      sum := 0;
      for i := 0 to |items|
        invariant sum + WeightedFrom(w, counts, i) == Weighted(w, counts)
      {
        sum := sum + counts[i] * items[i].value;
      }
    }

    /** getCost: units times cost, summed over the items. */
    method GetCost() returns (sum: int)
      requires Valid()
      ensures sum == Weighted(Costs(items), counts)
    {
      var w := Costs(items);
      sum := 0;
      for i := 0 to |items|
        invariant sum + WeightedFrom(w, counts, i) == Weighted(w, counts)
      {
        sum := sum + counts[i] * items[i].cost;
      }
    }
  }
}

=== FILE: sums.dfy ===
/**
  Weighted sums over selections.

  A 0/1 selection over n items is a `seq<bool>` of length n; an unbounded
  selection is a `seq<int>` of take counts. `DotFrom(w, x, lo)` adds w[i] over
  the positions lo <= i < n that x selects, `WeightedFrom(w, m, lo)` adds
  m[i] * w[i]; with w the item values or costs these are the value and cost of
  a selection. The lemmas are the facts the solver's bookkeeping relies on:
  changing one position, splitting at a depth, and renaming positions through
  a permutation of indices.
 */
module Sums {

  /** The sum of w[i] over lo <= i < |x| with x[i] set. */
  function DotFrom(w: seq<int>, x: seq<bool>, lo: nat): int
    requires |w| == |x|
    decreases |x| - lo
  {
    if lo >= |x| then 0 else (if x[lo] then w[lo] else 0) + DotFrom(w, x, lo + 1)
  }

  /** The sum of w[i] over every selected position. */
  function Dot(w: seq<int>, x: seq<bool>): int
    requires |w| == |x|
  {
    DotFrom(w, x, 0)
  }

  /** The sum of m[i] * w[i] over lo <= i < |m|. */
  function WeightedFrom(w: seq<int>, m: seq<int>, lo: nat): int
    requires |w| == |m|
    decreases |m| - lo
  {
    if lo >= |m| then 0 else m[lo] * w[lo] + WeightedFrom(w, m, lo + 1)
  }

  /** The sum of m[i] * w[i] over every position. */
  function Weighted(w: seq<int>, m: seq<int>): int
    requires |w| == |m|
  {
    WeightedFrom(w, m, 0)
  }

  predicate NonNegative(w: seq<int>)
  {
    forall i :: 0 <= i < |w| ==> w[i] >= 0
  }

  /** A 0/1 selection as take counts 0 and 1. */
  function Counts(x: seq<bool>): (m: seq<int>)
    ensures |m| == |x|
    ensures forall i :: 0 <= i < |x| ==> m[i] == (if x[i] then 1 else 0)
  {
    seq(|x|, i requires 0 <= i < |x| => if x[i] then 1 else 0)
  }

  // ---------------------------------------------------------------- 0/1 sums

  /** Non-negative weights give a non-negative sum. */
  lemma {:induction false} DotFromNonNegative(w: seq<int>, x: seq<bool>, lo: nat)
    requires |w| == |x| && NonNegative(w)
    ensures DotFrom(w, x, lo) >= 0
    decreases |x| - lo
  {
    if lo < |x| {
      DotFromNonNegative(w, x, lo + 1);
    }
  }

  /** With non-negative weights, a selected position contributes at least its weight. */
  lemma {:induction false} DotFromAtLeastMember(w: seq<int>, x: seq<bool>, lo: nat, t: nat)
    requires |w| == |x| && NonNegative(w)
    requires lo <= t < |x| && x[t]
    ensures DotFrom(w, x, lo) >= w[t]
    decreases |x| - lo
  {
    if lo == t {
      DotFromNonNegative(w, x, lo + 1);
    } else {
      DotFromAtLeastMember(w, x, lo + 1, t);
      assert x[lo] ==> w[lo] >= 0;
    }
  }

  /** Nothing selected from lo on: the sum from lo is zero. */
  lemma {:induction false} DotFromNone(w: seq<int>, x: seq<bool>, lo: nat)
    requires |w| == |x|
    requires forall i :: lo <= i < |x| ==> !x[i]
    ensures DotFrom(w, x, lo) == 0
    decreases |x| - lo
  {
    if lo < |x| {
      DotFromNone(w, x, lo + 1);
    }
  }

  /** Selecting one more position t adds exactly w[t]. */
  lemma {:induction false} DotFromSelect(w: seq<int>, x: seq<bool>, t: nat, lo: nat)
    requires |w| == |x| && lo <= t < |x| && !x[t]
    ensures DotFrom(w, x[t := true], lo) == DotFrom(w, x, lo) + w[t]
    decreases |x| - lo
  {
    if lo < t {
      DotFromSelect(w, x, t, lo + 1);
    } else {
      DotFromEqual(w, x[t := true], x, lo + 1);
    }
  }

  /** Sums from lo only depend on the selection from lo on. */
  lemma {:induction false} DotFromEqual(w: seq<int>, x: seq<bool>, y: seq<bool>, lo: nat)
    requires |w| == |x| == |y|
    requires forall i :: lo <= i < |x| ==> x[i] == y[i]
    ensures DotFrom(w, x, lo) == DotFrom(w, y, lo)
    decreases |x| - lo
  {
    if lo < |x| {
      DotFromEqual(w, x, y, lo + 1);
    }
  }

  /**
    Split at depth d: if x agrees with y on [lo, d) and y selects nothing from
    d on, the sum of x is y's sum plus what x selects from d on.
   */
  lemma {:induction false} DotFromSplit(w: seq<int>, x: seq<bool>, y: seq<bool>, lo: nat, d: nat)
    requires |w| == |x| == |y| && lo <= d <= |x|
    requires forall i :: lo <= i < d ==> x[i] == y[i]
    requires forall i :: d <= i < |y| ==> !y[i]
    ensures DotFrom(w, x, lo) == DotFrom(w, y, lo) + DotFrom(w, x, d)
    decreases d - lo
  {
    if lo == d {
      DotFromNone(w, y, d);
    } else {
      DotFromSplit(w, x, y, lo + 1, d);
    }
  }

  /** A 0/1 sum is the weighted sum of its 0/1 counts. */
  lemma {:induction false} DotFromIsWeighted(w: seq<int>, x: seq<bool>, lo: nat)
    requires |w| == |x|
    ensures DotFrom(w, x, lo) == WeightedFrom(w, Counts(x), lo)
    decreases |x| - lo
  {
    if lo < |x| {
      DotFromIsWeighted(w, x, lo + 1);
    }
  }

  // --------------------------------------------------------- weighted sums

  /** Non-negative counts and weights give a non-negative sum. */
  lemma {:induction false} WeightedFromNonNegative(w: seq<int>, m: seq<int>, lo: nat)
    requires |w| == |m| && NonNegative(w) && NonNegative(m)
    ensures WeightedFrom(w, m, lo) >= 0
    decreases |m| - lo
  {
    if lo < |m| {
      WeightedFromNonNegative(w, m, lo + 1);
      assert m[lo] * w[lo] >= 0;
    }
  }

  /** All counts zero from lo on: the sum from lo is zero. */
  lemma {:induction false} WeightedFromZero(w: seq<int>, m: seq<int>, lo: nat)
    requires |w| == |m|
    requires forall i :: lo <= i < |m| ==> m[i] == 0
    ensures WeightedFrom(w, m, lo) == 0
    decreases |m| - lo
  {
    if lo < |m| {
      WeightedFromZero(w, m, lo + 1);
    }
  }

  /** Setting the count at position j to a changes the sum by (a - m[j]) * w[j]. */
  lemma {:induction false} WeightedFromUpdate(w: seq<int>, m: seq<int>, j: nat, a: int, lo: nat)
    requires |w| == |m| && lo <= j < |m|
    ensures WeightedFrom(w, m[j := a], lo) == WeightedFrom(w, m, lo) + (a - m[j]) * w[j]
    decreases |m| - lo
  {
    if lo < j {
      WeightedFromUpdate(w, m, j, a, lo + 1);
    } else {
      WeightedFromEqual(w, m[j := a], m, lo + 1);
      assert a * w[j] == m[j] * w[j] + (a - m[j]) * w[j];
    }
  }

  /** Sums from lo only depend on the counts from lo on. */
  lemma {:induction false} WeightedFromEqual(w: seq<int>, m: seq<int>, m': seq<int>, lo: nat)
    requires |w| == |m| == |m'|
    requires forall i :: lo <= i < |m| ==> m[i] == m'[i]
    ensures WeightedFrom(w, m, lo) == WeightedFrom(w, m', lo)
    decreases |m| - lo
  {
    if lo < |m| {
      WeightedFromEqual(w, m, m', lo + 1);
    }
  }

  /** Dropping the last position removes its term. */
  lemma {:induction false} WeightedFromDropLast(w: seq<int>, m: seq<int>, lo: nat)
    requires |w| == |m| > 0 && lo < |m|
    ensures WeightedFrom(w, m, lo)
         == WeightedFrom(w[..|w| - 1], m[..|m| - 1], lo) + m[|m| - 1] * w[|w| - 1]
    decreases |m| - lo
  {
    if lo < |m| - 1 {
      WeightedFromDropLast(w, m, lo + 1);
    }
  }

  /**
    Split at depth d: if m agrees with m' on [lo, d) and m' has no count from d
    on, the sum of m is the sum of m' plus what m counts from d on.
   */
  lemma {:induction false} WeightedFromSplit(w: seq<int>, m: seq<int>, m': seq<int>, lo: nat, d: nat)
    requires |w| == |m| == |m'| && lo <= d <= |m|
    requires forall i :: lo <= i < d ==> m[i] == m'[i]
    requires forall i :: d <= i < |m'| ==> m'[i] == 0
    ensures WeightedFrom(w, m, lo) == WeightedFrom(w, m', lo) + WeightedFrom(w, m, d)
    decreases d - lo
  {
    if lo == d {
      WeightedFromZero(w, m', d);
    } else {
      WeightedFromSplit(w, m, m', lo + 1, d);
    }
  }

  /** With non-negative weights and counts, one position contributes at most the whole sum. */
  lemma {:induction false} WeightedFromAtLeastMember(w: seq<int>, m: seq<int>, lo: nat, t: nat)
    requires |w| == |m| && NonNegative(w) && NonNegative(m)
    requires lo <= t < |m|
    ensures WeightedFrom(w, m, lo) >= m[t] * w[t]
    decreases |m| - lo
  {
    WeightedFromNonNegative(w, m, lo + 1);
    if lo < t {
      WeightedFromAtLeastMember(w, m, lo + 1, t);
      assert m[lo] * w[lo] >= 0;
    }
  }

  /** The positions of `ids` are distinct indices below n. */
  predicate DistinctIndices(ids: seq<nat>, n: nat)
  {
    (forall k :: 0 <= k < |ids| ==> ids[k] < n) &&
    (forall k, l :: 0 <= k < l < |ids| ==> ids[k] != ids[l])
  }

  /** The counts or marks of `m` read through `ids`: position k gets m[ids[k]]. */
  function Pull<T>(m: seq<T>, ids: seq<nat>): (r: seq<T>)
    requires forall k :: 0 <= k < |ids| ==> ids[k] < |m|
    ensures |r| == |ids|
    ensures forall k :: 0 <= k < |ids| ==> r[k] == m[ids[k]]
  {
    seq(|ids|, k requires 0 <= k < |ids| => m[ids[k]])
  }

  /**
    Renaming positions. `ids` maps each position k of a reordered list to a
    distinct original index, and u[k] is the weight of that original item. A
    selection m over the original indices that only uses indices in `ids` has
    the same weighted sum as the selection it induces on the reordered list.
   */
  lemma {:induction false} WeightedReindex(w: seq<int>, m: seq<int>, u: seq<int>, ids: seq<nat>)
    requires |w| == |m| && |u| == |ids| && DistinctIndices(ids, |m|)
    requires forall k :: 0 <= k < |ids| ==> u[k] == w[ids[k]]
    requires forall i :: 0 <= i < |m| && m[i] != 0 ==> i in ids
    ensures Weighted(w, m) == Weighted(u, Pull(m, ids))
    decreases |ids|
  {
    if |ids| == 0 {
      WeightedFromZero(w, m, 0);
      WeightedFromZero(u, Pull(m, ids), 0);
    } else {
      var last := |ids| - 1;
      var j := ids[last];
      var m' := m[j := 0];
      SupportWithoutLast(m, ids);
      WeightedReindex(w, m', u[..last], ids[..last]);
      WeightedFromUpdate(w, m', j, m[j], 0);
      assert m'[j := m[j]] == m;
      PullWithoutLast(m, ids);
      WeightedFromDropLast(u, Pull(m, ids), 0);
    }
  }

  /** Clearing the count of the last id leaves a support within the other ids. */
  lemma SupportWithoutLast(m: seq<int>, ids: seq<nat>)
    requires |ids| > 0 && DistinctIndices(ids, |m|)
    requires forall i :: 0 <= i < |m| && m[i] != 0 ==> i in ids
    ensures DistinctIndices(ids[..|ids| - 1], |m|)
    ensures var m' := m[ids[|ids| - 1] := 0];
      forall i :: 0 <= i < |m'| && m'[i] != 0 ==> i in ids[..|ids| - 1]
  {
    var last := |ids| - 1;
    var m', ids' := m[ids[last] := 0], ids[..last];
    forall i | 0 <= i < |m'| && m'[i] != 0
      ensures i in ids'
    {
      assert i in ids;
      var k :| 0 <= k < |ids| && ids[k] == i;
      assert ids'[k] == i;
    }
  }

  /** Reading through all ids but the last is the prefix of reading through all ids. */
  lemma PullWithoutLast(m: seq<int>, ids: seq<nat>)
    requires |ids| > 0 && DistinctIndices(ids, |m|)
    ensures var last := |ids| - 1;
      Pull(m, ids)[..last] == Pull(m[ids[last] := 0], ids[..last])
  {
    var last := |ids| - 1;
    var p, p' := Pull(m, ids), Pull(m[ids[last] := 0], ids[..last]);
    forall k | 0 <= k < last
      ensures p[..last][k] == p'[k]
    {
      assert ids[k] != ids[last];
    }
  }
}

=== FILE: unbounded.dfy ===
/**
  The unbounded solver: UnboundedKnapstack::BranchAndBound.

  Any number of units of an item may be taken. The search stack holds
  entries (depth, units), depths strictly increasing and at least one unit
  each. A commit at a depth takes as many units of the item as the remaining
  budget allows; backtracking removes one unit of the top entry (dropping the
  entry when its count reaches zero) and resumes the scan one depth further.

  The engine prunes with the estimate `e`: `Chained` is the source's
  `computeUpperBound`, `Relaxed` the linear relaxation v + b·ratio(depth)
  (see module Bounds for both). Only with `Relaxed` is the search proved to
  return counts of maximum value among all counts within the budget, for
  ratio-sorted items with non-negative values; `ChainedSearchMissesOptimum`
  shows a `Chained` run that misses it.
 */
module UnboundedKnapsack {
  import opened Items
  import opened Sums
  import opened Bounds
  import opened Control
  import opened UnboundedOrder
  import opened Preprocessing
  import opened Solutions

  /** A stack entry: `units` units of the item at `depth`. */
  datatype Take = Take(depth: int, units: int)

  /** A take stack: depths strictly increasing, all below n, each with at least one unit. */
  predicate IsTakeStack(s: seq<Take>, n: nat)
  {
    (forall k :: 0 <= k < |s| ==> 0 <= s[k].depth < n && s[k].units >= 1) &&
    (forall k, l :: 0 <= k < l < |s| ==> s[k].depth < s[l].depth)
  }

  /** Every depth on the stack is below d. */
  predicate TakesBelow(s: seq<Take>, d: nat)
  {
    forall k :: 0 <= k < |s| ==> s[k].depth < d
  }

  /** Units times w at each entry's depth, accumulated entry by entry. */
  function TakeSum(w: seq<int>, s: seq<Take>): int
    requires forall k :: 0 <= k < |s| ==> 0 <= s[k].depth < |w|
  {
    if |s| == 0 then 0 else TakeSum(w, s[..|s| - 1]) + s[|s| - 1].units * w[s[|s| - 1].depth]
  }

  /** The count vector a stack stands for: the units at each entry's depth, zero elsewhere. */
  function CountsOf(s: seq<Take>, n: nat): (x: seq<int>)
    requires forall k :: 0 <= k < |s| ==> 0 <= s[k].depth < n
    ensures |x| == n
  {
    if |s| == 0 then seq(n, i => 0)
    else CountsOf(s[..|s| - 1], n)[s[|s| - 1].depth := s[|s| - 1].units]
  }

  /** Depths not reached by the stack have count zero. */
  lemma {:induction false} CountsOfZeroFrom(s: seq<Take>, n: nat, d: nat)
    requires forall k :: 0 <= k < |s| ==> 0 <= s[k].depth < n
    requires TakesBelow(s, d)
    ensures forall i :: d <= i < n ==> CountsOf(s, n)[i] == 0
    decreases |s|
  {
    if |s| > 0 {
      CountsOfZeroFrom(s[..|s| - 1], n, d);
    }
  }

  /** Pushing an entry above every depth on the stack: a take stack again, with that count set. */
  lemma PushTake(s: seq<Take>, t: Take, n: nat)
    requires 0 <= t.depth < n && t.units >= 1 && IsTakeStack(s, n) && TakesBelow(s, t.depth)
    ensures IsTakeStack(s + [t], n) && TakesBelow(s + [t], t.depth + 1)
    ensures CountsOf(s + [t], n) == CountsOf(s, n)[t.depth := t.units]
  {
    assert (s + [t])[..|s|] == s;
  }

  /** Pushing an entry adds its units' weight to the sum. */
  lemma PushTakeSum(w: seq<int>, s: seq<Take>, t: Take)
    requires 0 <= t.depth < |w| && t.units >= 1 && IsTakeStack(s, |w|) && TakesBelow(s, t.depth)
    ensures TakeSum(w, s + [t]) == TakeSum(w, s) + t.units * w[t.depth]
  {
    PushTake(s, t, |w|);
    assert (s + [t])[..|s|] == s;
  }

  /** A stack's counts are non-negative, and its sums are the weighted sums of its counts. */
  lemma {:induction false} TakeSumIsWeighted(w: seq<int>, s: seq<Take>)
    requires IsTakeStack(s, |w|)
    ensures NonNegative(CountsOf(s, |w|))
    ensures TakeSum(w, s) == Weighted(w, CountsOf(s, |w|))
    decreases |s|
  {
    var n := |w|;
    if |s| == 0 {
      WeightedFromZero(w, CountsOf(s, n), 0);
    } else {
      var s', t := s[..|s| - 1], s[|s| - 1];
      TakeSumIsWeighted(w, s');
      CountsOfZeroFrom(s', n, t.depth);
      WeightedFromUpdate(w, CountsOf(s', n), t.depth, t.units, 0);
    }
  }

  /**
    Counts within the budget are at most the budget: every cost is at least
    one.
   */
  lemma WithinBudgetInRange(items: seq<Item>, budget: nat, m: seq<int>)
    requires PositiveCosts(items) && |m| == |items| && NonNegative(m)
    requires Weighted(Costs(items), m) <= budget
    ensures InRange(m, budget)
  {
    forall i | 0 <= i < |m|
      ensures m[i] <= budget
    {
      WeightedFromAtLeastMember(Costs(items), m, 0, i);
      MulMono(1, items[i].cost, m[i]);
    }
  }

  /**
    The units a commit takes: as many as the remaining budget pays for. An
    item that fits gets at least one unit, and what is left is less than one
    more.
   */
  function UnitsToTake(budgetLeft: int, cost: int): (units: int)
    requires 0 < cost <= budgetLeft
    ensures units >= 1 && units * cost <= budgetLeft < (units + 1) * cost
  {
    assert (budgetLeft / cost + 1) * cost == budgetLeft / cost * cost + cost;
    budgetLeft / cost
  }

  /** One factor fewer: (c - 1) * a == c * a - a. */
  lemma MulPred(c: int, a: int)
    ensures (c - 1) * a == c * a - a
  {
  }

  /**
    The backtrack update of the stack: one unit fewer of the top entry, and
    the entry is popped when that leaves none.
   */
  function RemoveOneUnit(s: seq<Take>): (r: seq<Take>)
    requires |s| > 0
  {
    var top := s[|s| - 1];
    if top.units - 1 == 0 then s[..|s| - 1] else s[..|s| - 1] + [Take(top.depth, top.units - 1)]
  }

  /** Removing one unit keeps a take stack, all of it at or below the old top depth. */
  lemma RemoveOneUnitStack(s: seq<Take>, n: nat)
    requires |s| > 0 && IsTakeStack(s, n)
    ensures IsTakeStack(RemoveOneUnit(s), n) && TakesBelow(RemoveOneUnit(s), s[|s| - 1].depth + 1)
  {
    var s', top := s[..|s| - 1], s[|s| - 1];
    if top.units - 1 != 0 {
      var r := s' + [Take(top.depth, top.units - 1)];
      assert forall k :: 0 <= k < |s'| ==> r[k] == s[k];
    }
  }

  /**
    Removing one unit of the top entry lowers its count by one and leaves
    every other count alone.
   */
  lemma RemoveOneUnitCounts(s: seq<Take>, n: nat)
    requires |s| > 0 && IsTakeStack(s, n)
    ensures IsTakeStack(RemoveOneUnit(s), n)
    ensures var top := s[|s| - 1];
      CountsOf(RemoveOneUnit(s), n) == CountsOf(s, n)[top.depth := top.units - 1]
  {
    RemoveOneUnitStack(s, n);
    var s', top := s[..|s| - 1], s[|s| - 1];
    var x' := CountsOf(s', n);
    assert CountsOf(s, n) == x'[top.depth := top.units];
    if top.units - 1 == 0 {
      CountsOfZeroFrom(s', n, top.depth);
      assert x'[top.depth := top.units][top.depth := 0] == x';
    } else {
      var r := s' + [Take(top.depth, top.units - 1)];
      assert r[..|r| - 1] == s';
      assert x'[top.depth := top.units][top.depth := top.units - 1] == x'[top.depth := top.units - 1];
    }
  }

  /** Removing one unit of the top entry lowers the sum by that item's weight. */
  lemma RemoveOneUnitSum(w: seq<int>, s: seq<Take>)
    requires |s| > 0 && IsTakeStack(s, |w|)
    ensures TakeSum(w, RemoveOneUnit(s)) == TakeSum(w, s) - w[s[|s| - 1].depth]
  {
    var s', top := s[..|s| - 1], s[|s| - 1];
    var c, a := top.units, w[top.depth];
    assert TakeSum(w, s) == TakeSum(w, s') + c * a;
    MulPred(c, a);
    if c - 1 != 0 {
      assert IsTakeStack(s', |w|) && TakesBelow(s', top.depth);
      PushTakeSum(w, s', Take(top.depth, c - 1));
    }
  }

  // ------------------------------------------------------- search frontier

  /** Every count vector within the budget among the first `frontier` leaves is worth at most `best`. */
  ghost predicate Dominated(items: seq<Item>, budget: nat, best: int, frontier: int)
  {
    forall m: seq<int> ::
      |m| == |items| && NonNegative(m) && Weighted(Costs(items), m) <= budget &&
      CountKey(m, budget, |m|) < frontier
      ==> Weighted(Values(items), m) <= best
  }

  /** No leaf comes before the first one. */
  lemma DominatedAtStart(items: seq<Item>, budget: nat, best: int)
    requires PositiveCosts(items)
    ensures Dominated(items, budget, best, 0)
  {
    forall m: seq<int> | |m| == |items| && NonNegative(m) && Weighted(Costs(items), m) <= budget
      ensures CountKey(m, budget, |m|) >= 0
    {
      WithinBudgetInRange(items, budget, m);
      KeyBelowTop(m, budget);
    }
  }

  /**
    Taking u units at depth d, or none when u = 0, loses nothing when u + 1
    units do not fit the remaining budget: every leaf below the current node
    that takes more than u units at d is over budget.
   */
  lemma OverStep(items: seq<Item>, budget: nat, best: int, s: seq<Take>, d: nat, u: int, b: int)
    requires PositiveCosts(items) && d < |items| && IsTakeStack(s, |items|) && TakesBelow(s, d)
    requires b == budget - TakeSum(Costs(items), s) && 0 <= b < (u + 1) * items[d].cost && 0 <= u
    requires Dominated(items, budget, best, CountKey(CountsOf(s, |items|), budget, d))
    ensures Dominated(items, budget, best,
      CountKey(CountsOf(s, |items|), budget, d) + (budget - u) * Place(budget, |items| - d - 1))
  {
    var n, M := |items|, budget;
    var key := CountKey(CountsOf(s, n), M, d);
    forall z: seq<int> | |z| == n && NonNegative(z) && Weighted(Costs(items), z) <= budget &&
                         CountKey(z, M, n) < key + (M - u) * Place(M, n - d - 1)
      ensures Weighted(Values(items), z) <= best
    {
      if CountKey(z, M, n) >= key {
        OverLeaf(items, budget, s, d, u, b, z);
      }
    }
  }

  /**
    A leaf within the budget below the node of stack s at depth d, where
    u + 1 units of item d do not fit the remaining budget b, takes at most
    u units at d: its key is at or past the child that takes u units.
   */
  lemma OverLeaf(items: seq<Item>, budget: nat, s: seq<Take>, d: nat, u: int, b: int, z: seq<int>)
    requires PositiveCosts(items) && d < |items| && IsTakeStack(s, |items|) && TakesBelow(s, d)
    requires b == budget - TakeSum(Costs(items), s) && 0 <= b < (u + 1) * items[d].cost && 0 <= u
    requires |z| == |items| && NonNegative(z) && Weighted(Costs(items), z) <= budget
    requires CountKey(z, budget, |z|) >= CountKey(CountsOf(s, |items|), budget, d)
    ensures CountKey(z, budget, |z|)
      >= CountKey(CountsOf(s, |items|), budget, d) + (budget - u) * Place(budget, |items| - d - 1)
  {
    if CountKey(z, budget, |z|) < CountKey(CountsOf(s, |items|), budget, d) + (budget - u) * Place(budget, |items| - d - 1) {
      DigitAboveChild(items, budget, s, d, u, z);
      MoreUnitsOverBudget(items, budget, s, d, u, b, z);
      assert false;
    }
  }

  /**
    Counts within the budget whose key lies between the node (s, d) and the
    child taking u units agree with the stack above d and take more than u
    units at d.
   */
  lemma DigitAboveChild(items: seq<Item>, budget: nat, s: seq<Take>, d: nat, u: int, z: seq<int>)
    requires PositiveCosts(items) && d < |items| && IsTakeStack(s, |items|)
    requires TakeSum(Costs(items), s) <= budget && 0 <= u
    requires |z| == |items| && NonNegative(z) && Weighted(Costs(items), z) <= budget
    requires CountKey(CountsOf(s, |items|), budget, d) <= CountKey(z, budget, |z|)
             < CountKey(CountsOf(s, |items|), budget, d) + (budget - u) * Place(budget, |items| - d - 1)
    ensures z[d] > u && forall i :: 0 <= i < d ==> z[i] == CountsOf(s, |items|)[i]
  {
    ChildBelowNode(budget, |items| - d - 1, u);
    assert |items| - d - 1 + 1 == |items| - d;
    LeafBelowNode(items, budget, s, d, z);
    WithinBudgetInRange(items, budget, z);
    KeyDigitAbove(z, CountsOf(s, |items|), budget, d, u);
  }

  /**
    Counts that agree with the stack below depth d and take more than u units
    at d, where u + 1 units do not fit the remaining budget b, are over the
    budget.
   */
  lemma MoreUnitsOverBudget(items: seq<Item>, budget: nat, s: seq<Take>, d: nat, u: int, b: int, z: seq<int>)
    requires PositiveCosts(items) && d < |items| && IsTakeStack(s, |items|) && TakesBelow(s, d)
    requires b == budget - TakeSum(Costs(items), s) && b < (u + 1) * items[d].cost
    requires |z| == |items| && NonNegative(z) && z[d] > u
    requires forall i :: 0 <= i < d ==> z[i] == CountsOf(s, |items|)[i]
    ensures Weighted(Costs(items), z) > budget
  {
    var x := CountsOf(s, |items|);
    TakeSumIsWeighted(Costs(items), s);
    CountsOfZeroFrom(s, |items|, d);
    WeightedFromSplit(Costs(items), z, x, 0, d);
    WeightedFromAtLeastMember(Costs(items), z, d, d);
    MulMono(u + 1, z[d], items[d].cost);
  }

  /**
    A leaf within the budget below the node of stack s at depth d is worth
    at most the corrected bound from that node.
   */
  lemma BoundCoversLeaf(items: seq<Item>, budget: nat, s: seq<Take>, d: nat, v: int, b: int, z: seq<int>)
    requires PositiveCosts(items) && NonNegativeValues(items) && SortedFrom(items, 0)
    requires d <= |items| && IsTakeStack(s, |items|) && TakesBelow(s, d)
    requires v == TakeSum(Values(items), s) && b == budget - TakeSum(Costs(items), s)
    requires |z| == |items| && NonNegative(z) && Weighted(Costs(items), z) <= budget
    requires forall i :: 0 <= i < d ==> z[i] == CountsOf(s, |items|)[i]
    ensures Weighted(Values(items), z) as real <= RelaxedUnboundedBound(items, d, v, b)
  {
    var x := CountsOf(s, |items|);
    TakeSumIsWeighted(Costs(items), s);
    TakeSumIsWeighted(Values(items), s);
    CountsOfZeroFrom(s, |items|, d);
    WeightedFromSplit(Costs(items), z, x, 0, d);
    WeightedFromSplit(Values(items), z, x, 0, d);
    RelaxedUnboundedBoundSound(items, d, v, b, z);
  }

  /**
    Pruning loses nothing: when the corrected bound from depth d is at most
    the incumbent, no leaf below the current node is worth more than it.
   */
  lemma PruneStep(items: seq<Item>, budget: nat, best: int, s: seq<Take>, d: nat, v: int, b: int)
    requires PositiveCosts(items) && NonNegativeValues(items) && SortedFrom(items, 0)
    requires d <= |items| && IsTakeStack(s, |items|) && TakesBelow(s, d)
    requires v == TakeSum(Values(items), s) && b == budget - TakeSum(Costs(items), s) && b >= 0
    requires RelaxedUnboundedBound(items, d, v, b) <= best as real
    requires Dominated(items, budget, best, CountKey(CountsOf(s, |items|), budget, d))
    ensures Dominated(items, budget, best,
      CountKey(CountsOf(s, |items|), budget, d) + Place(budget, |items| - d))
  {
    var n, M := |items|, budget;
    var key := CountKey(CountsOf(s, n), M, d);
    forall z: seq<int> | |z| == n && NonNegative(z) && Weighted(Costs(items), z) <= budget &&
                         CountKey(z, M, n) < key + Place(M, n - d)
      ensures Weighted(Values(items), z) <= best
    {
      if CountKey(z, M, n) >= key {
        PrunedLeaf(items, budget, s, d, v, b, z);
      }
    }
  }

  /** A leaf within the budget whose key lies in the range of the node (s, d) agrees with the stack below d. */
  lemma LeafBelowNode(items: seq<Item>, budget: nat, s: seq<Take>, d: nat, z: seq<int>)
    requires PositiveCosts(items) && d <= |items| && IsTakeStack(s, |items|)
    requires TakeSum(Costs(items), s) <= budget
    requires |z| == |items| && NonNegative(z) && Weighted(Costs(items), z) <= budget
    requires CountKey(CountsOf(s, |items|), budget, d) <= CountKey(z, budget, |z|)
             < CountKey(CountsOf(s, |items|), budget, d) + Place(budget, |items| - d)
    ensures forall i :: 0 <= i < d ==> z[i] == CountsOf(s, |items|)[i]
  {
    StackInRange(items, budget, s);
    WithinBudgetInRange(items, budget, z);
    KeyDeterminesPrefix(z, CountsOf(s, |items|), budget, d);
  }

  /** The counts of a stack within the budget are each between 0 and the budget. */
  lemma StackInRange(items: seq<Item>, budget: nat, s: seq<Take>)
    requires PositiveCosts(items) && IsTakeStack(s, |items|) && TakeSum(Costs(items), s) <= budget
    ensures |CountsOf(s, |items|)| == |items| && InRange(CountsOf(s, |items|), budget)
  {
    TakeSumIsWeighted(Costs(items), s);
    WithinBudgetInRange(items, budget, CountsOf(s, |items|));
  }

  /** A leaf within the budget whose key lies in the range of the node (s, d) is covered by its bound. */
  lemma PrunedLeaf(items: seq<Item>, budget: nat, s: seq<Take>, d: nat, v: int, b: int, z: seq<int>)
    requires PositiveCosts(items) && NonNegativeValues(items) && SortedFrom(items, 0)
    requires d <= |items| && IsTakeStack(s, |items|) && TakesBelow(s, d)
    requires v == TakeSum(Values(items), s) && b == budget - TakeSum(Costs(items), s) && b >= 0
    requires |z| == |items| && NonNegative(z) && Weighted(Costs(items), z) <= budget
    requires CountKey(CountsOf(s, |items|), budget, d) <= CountKey(z, budget, |z|)
             < CountKey(CountsOf(s, |items|), budget, d) + Place(budget, |items| - d)
    ensures Weighted(Values(items), z) as real <= RelaxedUnboundedBound(items, d, v, b)
  {
    LeafBelowNode(items, budget, s, d, z);
    BoundCoversLeaf(items, budget, s, d, v, b, z);
  }

  /** At full depth the current counts are the only leaf of their node. */
  lemma LeafStep(items: seq<Item>, budget: nat, best: int, best': int, x: seq<int>)
    requires |x| == |items| && InRange(x, budget)
    requires best <= best' && Weighted(Values(items), x) <= best'
    requires Dominated(items, budget, best, CountKey(x, budget, |x|))
    requires PositiveCosts(items)
    ensures Dominated(items, budget, best', CountKey(x, budget, |x|) + 1)
  {
    forall z: seq<int> | |z| == |items| && NonNegative(z) && Weighted(Costs(items), z) <= budget &&
                         CountKey(z, budget, |z|) < CountKey(x, budget, |x|) + 1
      ensures Weighted(Values(items), z) <= best'
    {
      if CountKey(z, budget, |z|) >= CountKey(x, budget, |x|) {
        WithinBudgetInRange(items, budget, z);
        KeyDeterminesLeaf(z, x, budget);
      }
    }
  }

  /**
    Backtracking from the end of the current subtree to the sibling that
    takes one unit fewer at the top depth t keeps the frontier where it is.
   */
  lemma PopStep(s: seq<Take>, d: nat, n: nat, M: nat)
    requires |s| > 0 && d <= n && IsTakeStack(s, n) && TakesBelow(s, d)
    ensures var t := s[|s| - 1].depth;
      CountKey(CountsOf(s, n), M, d) + Place(M, n - d)
      == CountKey(CountsOf(RemoveOneUnit(s), n), M, t + 1)
  {
    var t := s[|s| - 1].depth;
    var x, x' := CountsOf(s, n), CountsOf(RemoveOneUnit(s), n);
    assert x' == x[t := x[t] - 1] && forall i :: t < i < d ==> x[i] == 0 by {
      TopEntry(s, n);
      RemoveOneUnitCounts(s, n);
    }
    KeyOneFewer(x, M, t, d);
  }

  /** The top entry's count is its units, and every count above its depth is zero. */
  lemma TopEntry(s: seq<Take>, n: nat)
    requires |s| > 0 && IsTakeStack(s, n)
    ensures var top := s[|s| - 1];
      CountsOf(s, n)[top.depth] == top.units &&
      forall i :: top.depth < i < n ==> CountsOf(s, n)[i] == 0
  {
    var top := s[|s| - 1];
    assert TakesBelow(s, top.depth + 1) by {
      forall k | 0 <= k < |s|
        ensures s[k].depth < top.depth + 1
      {
        if k < |s| - 1 {
          assert s[k].depth < s[|s| - 1].depth;
        }
      }
    }
    CountsOfZeroFrom(s, n, top.depth + 1);
  }

  /** With the stack empty the whole tree has been accounted for. */
  lemma EmptyStep(d: nat, n: nat, M: nat)
    requires d <= n
    ensures CountKey(CountsOf([], n), M, d) + Place(M, n - d) == Place(M, n)
  {
    KeyGap(CountsOf([], n), M, 0, d);
  }

  // ------------------------------------------------------ search transitions

  /**
    The estimate the search prunes with. `Chained` is computeUpperBound as
    written: whole units of each item in turn while it costs less than the
    budget left, then the budget left times the ratio of the first item
    that does not. `Relaxed` is the corrected estimate: the value so far
    plus the budget left times the ratio of the item at the scan depth.
   */
  datatype Estimate = Chained | Relaxed

  /** The estimate `e` from the node at `depth` with value `v` and budget left `b`. */
  function Estimated(items: seq<Item>, e: Estimate, depth: nat, v: int, b: int): real
    requires PositiveCosts(items)
  {
    match e
    case Chained => UnboundedUpperBound(items, depth, v, b)
    case Relaxed => RelaxedUnboundedBound(items, depth, v, b)
  }

  /** The locals of the unbounded iterative_bnb between two jumps. */
  datatype Search = Search(phase: Phase, stack: seq<Take>, depth: nat, value: int, budgetLeft: int,
                           bestStack: seq<Take>, bestValue: int)

  /** The running state of a search node: the stack, its sums and the scan depth agree. */
  ghost predicate Node(items: seq<Item>, budget: nat, s: Search)
  {
    PositiveCosts(items) && s.depth <= |items| && IsTakeStack(s.stack, |items|) && TakesBelow(s.stack, s.depth) &&
    s.value == TakeSum(Values(items), s.stack) &&
    s.budgetLeft == budget - TakeSum(Costs(items), s.stack) && s.budgetLeft >= 0
  }

  /** The incumbent: a take stack within the budget and its value. */
  ghost predicate Incumbent(items: seq<Item>, budget: nat, s: Search)
  {
    IsTakeStack(s.bestStack, |items|) && s.bestValue == TakeSum(Values(items), s.bestStack) &&
    s.bestValue >= 0 && TakeSum(Costs(items), s.bestStack) <= budget
  }

  /** What optimality needs of the items: sorted by ratio, positive costs, non-negative values. */
  ghost predicate Sound(items: seq<Item>)
  {
    PositiveCosts(items) && NonNegativeValues(items) && SortedFrom(items, 0)
  }

  /** The leaves the search has accounted for, in visiting order. */
  ghost function Frontier(n: nat, M: nat, s: Search): int
    requires s.depth <= n && IsTakeStack(s.stack, n)
  {
    match s.phase
    case Descend => CountKey(CountsOf(s.stack, n), M, s.depth)
    case Backtrack => CountKey(CountsOf(s.stack, n), M, s.depth) + Place(M, n - s.depth)
    case Done => Place(M, n)
  }

  /**
    What every state of the search satisfies: a valid node and incumbent, a
    frontier inside the tree and, when the search prunes with the corrected
    estimate and the items are sound, an incumbent that dominates every leaf
    before the frontier. The estimate as written keeps only the first three.
   */
  ghost predicate Invariant(items: seq<Item>, budget: nat, e: Estimate, s: Search)
  {
    Node(items, budget, s) && Incumbent(items, budget, s) &&
    0 <= Frontier(|items|, budget, s) <= Place(budget, |items|) &&
    (e == Relaxed && Sound(items) ==> Dominated(items, budget, s.bestValue, Frontier(|items|, budget, s)))
  }

  /**
    One step moves the frontier forward, or keeps it and lowers the phase
    rank, or keeps both and scans deeper.
   */
  ghost predicate Advances(n: nat, M: nat, s: Search, s': Search)
    requires s.depth <= n && IsTakeStack(s.stack, n) && s'.depth <= n && IsTakeStack(s'.stack, n)
  {
    Frontier(n, M, s) < Frontier(n, M, s') ||
    (Frontier(n, M, s) == Frontier(n, M, s') &&
     (Rank(s'.phase) < Rank(s.phase) || (Rank(s'.phase) == Rank(s.phase) && s.depth < s'.depth)))
  }

  /** The frontier of a node never passes the end of the tree. */
  lemma FrontierAtMostAll(items: seq<Item>, budget: nat, s: Search)
    requires Node(items, budget, s)
    ensures 0 <= Frontier(|items|, budget, s) <= Place(budget, |items|)
  {
    var n := |items|;
    var x := CountsOf(s.stack, n);
    TakeSumIsWeighted(Costs(items), s.stack);
    WithinBudgetInRange(items, budget, x);
    KeyRange(x, budget, 0, s.depth);
    KeyRange(x, budget, s.depth, n);
    KeyBelowTop(x, budget);
  }

  /**
    A commit of u units at depth d from a node, u of them fitting the
    remaining budget: the new node, and the frontier it starts from.
   */
  lemma CommitStep(items: seq<Item>, budget: nat, s: Search, s': Search, u: int)
    requires Node(items, budget, s) && s.depth < |items|
    requires u >= 1 && u * items[s.depth].cost <= s.budgetLeft
    requires s' == s.(phase := Descend, stack := s.stack + [Take(s.depth, u)], depth := s.depth + 1,
                      value := s.value + u * items[s.depth].value,
                      budgetLeft := s.budgetLeft - u * items[s.depth].cost)
    ensures Node(items, budget, s')
    ensures CountKey(CountsOf(s'.stack, |items|), budget, s'.depth)
      == CountKey(CountsOf(s.stack, |items|), budget, s.depth) + (budget - u) * Place(budget, |items| - s.depth - 1)
  {
    CommitSums(items, budget, s.stack, s.depth, s.value, s.budgetLeft, u);
    PushKey(s.stack, |items|, budget, s.depth, u);
  }

  /** Pushing u fitting units at depth d keeps a take stack, with sums that follow the commit. */
  lemma CommitSums(items: seq<Item>, budget: nat, st: seq<Take>, d: nat, v: int, b: int, u: int)
    requires PositiveCosts(items) && d < |items| && IsTakeStack(st, |items|) && TakesBelow(st, d)
    requires v == TakeSum(Values(items), st) && b == budget - TakeSum(Costs(items), st)
    requires u >= 1 && u * items[d].cost <= b
    ensures IsTakeStack(st + [Take(d, u)], |items|) && TakesBelow(st + [Take(d, u)], d + 1)
    ensures v + u * items[d].value == TakeSum(Values(items), st + [Take(d, u)])
    ensures b - u * items[d].cost == budget - TakeSum(Costs(items), st + [Take(d, u)])
    ensures b - u * items[d].cost >= 0
  {
    PushTake(st, Take(d, u), |items|);
    PushTakeSum(Values(items), st, Take(d, u));
    PushTakeSum(Costs(items), st, Take(d, u));
  }

  /** Pushing u units at depth d extends the key of the node by the digit M - u. */
  lemma PushKey(st: seq<Take>, n: nat, M: nat, d: nat, u: int)
    requires d < n && u >= 1 && IsTakeStack(st, n) && TakesBelow(st, d)
    ensures CountKey(CountsOf(st + [Take(d, u)], n), M, d + 1)
      == CountKey(CountsOf(st, n), M, d) + (M - u) * Place(M, n - d - 1)
  {
    PushTake(st, Take(d, u), n);
    KeyCommit(CountsOf(st, n), M, d, u);
  }

  /** The state right after the root commit made by `goto begin`: item 0, as many units as fit. */
  function Root(items: seq<Item>, budget: int): (s: Search)
    requires |items| > 0 && 0 < items[0].cost <= budget
    ensures s.phase == Descend && s.depth == 1 && s.bestStack == [] && s.bestValue == 0
    ensures s.stack == [Take(0, UnitsToTake(budget, items[0].cost))]
    ensures s.budgetLeft == budget - s.stack[0].units * items[0].cost >= 0
  {
    var u := UnitsToTake(budget, items[0].cost);
    Search(Descend, [Take(0, u)], 1, u * items[0].value, budget - u * items[0].cost, [], 0)
  }

  lemma RootInvariant(items: seq<Item>, budget: nat, e: Estimate)
    requires |items| > 0 && PositiveCosts(items) && items[0].cost <= budget
    ensures Invariant(items, budget, e, Root(items, budget))
  {
    var start := Search(Descend, [], 0, 0, budget, [], 0);
    var s := Root(items, budget);
    var u := UnitsToTake(budget, items[0].cost);
    assert s == start.(stack := start.stack + [Take(0, u)], depth := 1,
                       value := u * items[0].value, budgetLeft := budget - u * items[0].cost);
    CommitStep(items, budget, start, s, u);
    FrontierAtMostAll(items, budget, s);
    if e == Relaxed && Sound(items) {
      DominatedAtStart(items, budget, 0);
      OverStep(items, budget, 0, [], 0, u, budget);
    }
  }

  lemma SkipTransition(items: seq<Item>, budget: nat, e: Estimate, s: Search, s': Search)
    requires Invariant(items, budget, e, s) && s.phase == Descend && s.depth < |items|
    requires s.budgetLeft < items[s.depth].cost
    requires s' == s.(depth := s.depth + 1)
    ensures Invariant(items, budget, e, s') && Advances(|items|, budget, s, s')
  {
    var n, d := |items|, s.depth;
    var x := CountsOf(s.stack, n);
    CountsOfZeroFrom(s.stack, n, d);
    assert x[d := 0] == x;
    KeyCommit(x, budget, d, 0);
    assert |x| - d - 1 == n - d - 1;
    var p := Place(budget, n - d - 1);
    MulMono(0, budget, p);
    assert Frontier(n, budget, s) == CountKey(x, budget, d);
    assert Frontier(n, budget, s') == CountKey(x, budget, d) + (budget - 0) * p;
    FrontierAtMostAll(items, budget, s');
    if e == Relaxed && Sound(items) {
      OverStep(items, budget, s.bestValue, s.stack, d, 0, s.budgetLeft);
    }
  }

  lemma PruneTransition(items: seq<Item>, budget: nat, e: Estimate, s: Search, s': Search)
    requires Invariant(items, budget, e, s) && s.phase == Descend && s.depth < |items|
    requires Estimated(items, e, s.depth, s.value, s.budgetLeft) <= s.bestValue as real
    requires s' == s.(phase := Backtrack)
    ensures Invariant(items, budget, e, s') && Advances(|items|, budget, s, s')
  {
    var n := |items|;
    var x := CountsOf(s.stack, n);
    assert Frontier(n, budget, s) == CountKey(x, budget, s.depth);
    assert Frontier(n, budget, s') == CountKey(x, budget, s.depth) + Place(budget, n - s.depth);
    FrontierAtMostAll(items, budget, s');
    assert Node(items, budget, s') && Incumbent(items, budget, s');
    if e == Relaxed && Sound(items) {
      assert Dominated(items, budget, s.bestValue, CountKey(x, budget, s.depth));
      PruneStep(items, budget, s.bestValue, s.stack, s.depth, s.value, s.budgetLeft);
    }
  }

  lemma TakeTransition(items: seq<Item>, budget: nat, e: Estimate, s: Search, s': Search, u: int)
    requires Invariant(items, budget, e, s) && s.phase == Descend && s.depth < |items|
    requires u >= 1 && u * items[s.depth].cost <= s.budgetLeft < (u + 1) * items[s.depth].cost
    requires s' == s.(stack := s.stack + [Take(s.depth, u)], depth := s.depth + 1,
                      value := s.value + u * items[s.depth].value,
                      budgetLeft := s.budgetLeft - u * items[s.depth].cost)
    ensures Invariant(items, budget, e, s') && Advances(|items|, budget, s, s')
  {
    var n, d := |items|, s.depth;
    var key, p := CountKey(CountsOf(s.stack, n), budget, d), Place(budget, n - d - 1);
    CommitStep(items, budget, s, s', u);
    FrontierAtMostAll(items, budget, s');
    UnitsWithinBudget(items, budget, s, u);
    MulMono(0, budget - u, p);
    assert Frontier(n, budget, s) == key;
    assert Frontier(n, budget, s') == key + (budget - u) * p;
    if e == Relaxed && Sound(items) {
      OverStep(items, budget, s.bestValue, s.stack, d, u, s.budgetLeft);
    }
  }

  /** Units of the item at the scan depth that fit the remaining budget number at most the budget. */
  lemma UnitsWithinBudget(items: seq<Item>, budget: nat, s: Search, u: int)
    requires Node(items, budget, s) && s.depth < |items|
    requires u >= 0 && u * items[s.depth].cost <= s.budgetLeft
    ensures u <= budget
  {
    TakeSumIsWeighted(Costs(items), s.stack);
    WeightedFromNonNegative(Costs(items), CountsOf(s.stack, |items|), 0);
    MulMono(1, items[s.depth].cost, u);
  }

  lemma LeafTransition(items: seq<Item>, budget: nat, e: Estimate, s: Search, s': Search)
    requires Invariant(items, budget, e, s) && s.phase == Descend && s.depth == |items|
    requires s' == if s.value > s.bestValue
                   then s.(phase := Backtrack, bestStack := s.stack, bestValue := s.value)
                   else s.(phase := Backtrack)
    ensures Invariant(items, budget, e, s') && Advances(|items|, budget, s, s')
  {
    var n := |items|;
    var x := CountsOf(s.stack, n);
    FrontierAtMostAll(items, budget, s');
    if e == Relaxed && Sound(items) {
      TakeSumIsWeighted(Values(items), s.stack);
      TakeSumIsWeighted(Costs(items), s.stack);
      WithinBudgetInRange(items, budget, x);
      LeafStep(items, budget, s.bestValue, s'.bestValue, x);
    }
  }

  lemma PopTransition(items: seq<Item>, budget: nat, e: Estimate, s: Search, s': Search)
    requires Invariant(items, budget, e, s) && s.phase == Backtrack && |s.stack| > 0
    requires var top := s.stack[|s.stack| - 1];
      s' == s.(phase := Descend, stack := RemoveOneUnit(s.stack), depth := top.depth + 1,
               value := s.value - items[top.depth].value,
               budgetLeft := s.budgetLeft + items[top.depth].cost)
    ensures Invariant(items, budget, e, s') && Advances(|items|, budget, s, s')
  {
    PopSums(items, budget, s.stack, s.depth, s.value, s.budgetLeft);
    PopStep(s.stack, s.depth, |items|, budget);
  }

  /** Removing one unit of the top entry keeps a take stack, with sums that follow the pop. */
  lemma PopSums(items: seq<Item>, budget: nat, st: seq<Take>, d: nat, v: int, b: int)
    requires PositiveCosts(items) && d <= |items| && |st| > 0 && IsTakeStack(st, |items|) && TakesBelow(st, d)
    requires v == TakeSum(Values(items), st) && b == budget - TakeSum(Costs(items), st) && b >= 0
    ensures var t := st[|st| - 1].depth;
      t + 1 <= |items| && IsTakeStack(RemoveOneUnit(st), |items|) && TakesBelow(RemoveOneUnit(st), t + 1) &&
      v - items[t].value == TakeSum(Values(items), RemoveOneUnit(st)) &&
      b + items[t].cost == budget - TakeSum(Costs(items), RemoveOneUnit(st)) &&
      b + items[t].cost >= 0
  {
    RemoveOneUnitStack(st, |items|);
    RemoveOneUnitSum(Values(items), st);
    RemoveOneUnitSum(Costs(items), st);
  }

  lemma EmptyTransition(items: seq<Item>, budget: nat, e: Estimate, s: Search, s': Search)
    requires Invariant(items, budget, e, s) && s.phase == Backtrack && |s.stack| == 0
    requires s' == s.(phase := Done)
    ensures Invariant(items, budget, e, s') && Advances(|items|, budget, s, s')
  {
    EmptyStep(s.depth, |items|, budget);
  }

  /**
    One jump of the unbounded iterative_bnb. Descending below depth n: an
    item that does not fit is skipped; otherwise either the search backtracks
    (estimate at most the incumbent) or commits to as many units of the item
    as fit. At depth n the incumbent is replaced on strict improvement, by
    the current stack, and at no other point. Backtracking removes one unit
    of the top entry and resumes the scan after its depth, or stops on an
    empty stack.
   */
  function Step(items: seq<Item>, budget: nat, e: Estimate, s: Search): (s': Search)
    requires Invariant(items, budget, e, s) && s.phase != Done
    ensures Invariant(items, budget, e, s') && Advances(|items|, budget, s, s')
    ensures s.phase == Descend && s.depth == |items| && s.value > s.bestValue ==>
      s'.bestStack == s.stack && s'.bestValue == s.value
    ensures !(s.phase == Descend && s.depth == |items| && s.value > s.bestValue) ==>
      s'.bestStack == s.bestStack && s'.bestValue == s.bestValue
  {
    var n := |items|;
    if s.phase == Descend then
      if s.depth < n then
        var it := items[s.depth];
        if s.budgetLeft < it.cost then
          var s' := s.(depth := s.depth + 1);
          SkipTransition(items, budget, e, s, s');
          s'
        else if Estimated(items, e, s.depth, s.value, s.budgetLeft) <= s.bestValue as real then
          // goto backtrack
          var s' := s.(phase := Backtrack);
          PruneTransition(items, budget, e, s, s');
          s'
        else
          // begin: take as many units as fit
          var units := UnitsToTake(s.budgetLeft, it.cost);
          var s' := s.(stack := s.stack + [Take(s.depth, units)], depth := s.depth + 1,
                       value := s.value + units * it.value, budgetLeft := s.budgetLeft - units * it.cost);
          TakeTransition(items, budget, e, s, s', units);
          s'
      else
        var s' := if s.value > s.bestValue
                  then s.(phase := Backtrack, bestStack := s.stack, bestValue := s.value)
                  else s.(phase := Backtrack);
        LeafTransition(items, budget, e, s, s');
        s'
    else if |s.stack| == 0 then
      var s' := s.(phase := Done);
      EmptyTransition(items, budget, e, s, s');
      s'
    else
      var top := s.stack[|s.stack| - 1];
      var s' := s.(phase := Descend, stack := RemoveOneUnit(s.stack), depth := top.depth + 1,
                   value := s.value - items[top.depth].value, budgetLeft := s.budgetLeft + items[top.depth].cost);
      PopTransition(items, budget, e, s, s');
      s'
  }

  /** The jumps of the search from s until it stops: the incumbent never gets worse. */
  function Run(items: seq<Item>, budget: nat, e: Estimate, s: Search): (r: Search)
    requires Invariant(items, budget, e, s)
    ensures Invariant(items, budget, e, r) && r.phase == Done && r.bestValue >= s.bestValue
    decreases Place(budget, |items|) - Frontier(|items|, budget, s), Rank(s.phase), |items| - s.depth
  {
    if s.phase == Done then s else Run(items, budget, e, Step(items, budget, e, s))
  }

  /** The state the search stops in, from the root commit of `goto begin`. */
  function Outcome(items: seq<Item>, budget: nat, e: Estimate): (r: Search)
    requires |items| > 0 && PositiveCosts(items) && items[0].cost <= budget
    ensures Invariant(items, budget, e, r) && r.phase == Done
  {
    RootInvariant(items, budget, e);
    Run(items, budget, e, Root(items, budget))
  }

  /**
    The unbounded iterative_bnb, pruning with the estimate `e`. Requires at
    least one item and every item to fit the budget, as the 0/1 engine does.
    Returns the best stack and its value, those of the state the search
    stops in. With the corrected estimate, for ratio-sorted items with
    non-negative values, no count vector within the budget is worth more.
   */
  method IterativeBnb(items: seq<Item>, budget: nat, e: Estimate) returns (bestStack: seq<Take>, bestValue: int)
    requires |items| > 0 && PositiveCosts(items)
    requires forall i :: 0 <= i < |items| ==> items[i].cost <= budget
    ensures bestStack == Outcome(items, budget, e).bestStack && bestValue == Outcome(items, budget, e).bestValue
    ensures IsTakeStack(bestStack, |items|)
    ensures bestValue == TakeSum(Values(items), bestStack) >= 0
    ensures TakeSum(Costs(items), bestStack) <= budget
    ensures e == Relaxed && NonNegativeValues(items) && SortedFrom(items, 0) ==>
      forall m: seq<int> :: |m| == |items| && NonNegative(m) && Weighted(Costs(items), m) <= budget ==>
        Weighted(Values(items), m) <= bestValue
  {
    var n := |items|;
    RootInvariant(items, budget, e);
    var s := Root(items, budget);
    while s.phase != Done
      invariant Invariant(items, budget, e, s)
      invariant Run(items, budget, e, s) == Outcome(items, budget, e)
      decreases Place(budget, n) - Frontier(n, budget, s), Rank(s.phase), n - s.depth
    {
      s := Step(items, budget, e, s);
    }
    bestStack, bestValue := s.bestStack, s.bestValue;
    forall m: seq<int> | e == Relaxed && Sound(items) && |m| == n && NonNegative(m) && Weighted(Costs(items), m) <= budget
      ensures Weighted(Values(items), m) <= bestValue
    {
      WithinBudgetInRange(items, budget, m);
      KeyBelowTop(m, budget);
    }
  }

  /** The items (11, 7), (7, 5), (4, 3) (value, cost), sorted by ratio. */
  ghost predicate Example(items: seq<Item>)
  {
    |items| == 3 && items[0] == Item(11, 7) && items[1] == Item(7, 5) && items[2] == Item(4, 3)
  }

  /** The states the search as written passes through on the example with budget 9. */
  function ExampleTrace(k: nat): Search
  {
    match k
    case 0 => Search(Descend, [Take(0, 1)], 1, 11, 2, [], 0)
    case 1 => Search(Descend, [Take(0, 1)], 2, 11, 2, [], 0)
    case 2 => Search(Descend, [Take(0, 1)], 3, 11, 2, [], 0)
    case 3 => Search(Backtrack, [Take(0, 1)], 3, 11, 2, [Take(0, 1)], 11)
    case 4 => Search(Descend, [], 1, 0, 9, [Take(0, 1)], 11)
    case 5 => Search(Backtrack, [], 1, 0, 9, [Take(0, 1)], 11)
    case _ => Search(Done, [], 1, 0, 9, [Take(0, 1)], 11)
  }

  /** Item 1 costs 5 > 2: skipped. */
  lemma ExampleSkipFirst(items: seq<Item>)
    requires Example(items) && Invariant(items, 9, Chained, ExampleTrace(0))
    ensures Invariant(items, 9, Chained, ExampleTrace(1))
    ensures Run(items, 9, Chained, ExampleTrace(0)) == Run(items, 9, Chained, ExampleTrace(1))
  {
    assert Step(items, 9, Chained, ExampleTrace(0)) == ExampleTrace(1);
    RunStepsTo(items, 9, Chained, ExampleTrace(0), ExampleTrace(1));
  }

  /** Item 2 costs 3 > 2: skipped. */
  lemma ExampleSkipSecond(items: seq<Item>)
    requires Example(items) && Invariant(items, 9, Chained, ExampleTrace(1))
    ensures Invariant(items, 9, Chained, ExampleTrace(2))
    ensures Run(items, 9, Chained, ExampleTrace(1)) == Run(items, 9, Chained, ExampleTrace(2))
  {
    assert Step(items, 9, Chained, ExampleTrace(1)) == ExampleTrace(2);
    RunStepsTo(items, 9, Chained, ExampleTrace(1), ExampleTrace(2));
  }

  /** Full depth with value 11 > 0: the stack becomes the incumbent. */
  lemma ExampleLeaf(items: seq<Item>)
    requires Example(items) && Invariant(items, 9, Chained, ExampleTrace(2))
    ensures Invariant(items, 9, Chained, ExampleTrace(3))
    ensures Run(items, 9, Chained, ExampleTrace(2)) == Run(items, 9, Chained, ExampleTrace(3))
  {
    assert Step(items, 9, Chained, ExampleTrace(2)) == ExampleTrace(3);
    RunStepsTo(items, 9, Chained, ExampleTrace(2), ExampleTrace(3));
  }

  /** The only unit of item 0 is removed and the scan resumes at depth 1. */
  lemma ExamplePop(items: seq<Item>)
    requires Example(items) && Invariant(items, 9, Chained, ExampleTrace(3))
    ensures Invariant(items, 9, Chained, ExampleTrace(4))
    ensures Run(items, 9, Chained, ExampleTrace(3)) == Run(items, 9, Chained, ExampleTrace(4))
  {
    assert RemoveOneUnit([Take(0, 1)]) == [];
    assert Step(items, 9, Chained, ExampleTrace(3)) == ExampleTrace(4);
    RunStepsTo(items, 9, Chained, ExampleTrace(3), ExampleTrace(4));
  }

  /** At depth 1 the chained estimate is 7 + 4 = 11, not above the incumbent: pruned. */
  lemma ExamplePrune(items: seq<Item>)
    requires Example(items) && Invariant(items, 9, Chained, ExampleTrace(4))
    ensures Invariant(items, 9, Chained, ExampleTrace(5))
    ensures Run(items, 9, Chained, ExampleTrace(4)) == Run(items, 9, Chained, ExampleTrace(5))
  {
    assert 9 / 5 == 1 && 4 / 3 == 1;
    assert UnboundedUpperBound(items, 3, 11, 1) == 11.0;
    assert UnboundedUpperBound(items, 2, 7, 4) == 11.0;
    assert UnboundedUpperBound(items, 1, 0, 9) == 11.0;
    assert Step(items, 9, Chained, ExampleTrace(4)) == ExampleTrace(5);
    RunStepsTo(items, 9, Chained, ExampleTrace(4), ExampleTrace(5));
  }

  /** Backtracking on the empty stack ends the search. */
  lemma ExampleStop(items: seq<Item>)
    requires Example(items) && Invariant(items, 9, Chained, ExampleTrace(5))
    ensures Run(items, 9, Chained, ExampleTrace(5)) == ExampleTrace(6)
  {
    assert Step(items, 9, Chained, ExampleTrace(5)) == ExampleTrace(6);
    RunStepsTo(items, 9, Chained, ExampleTrace(5), ExampleTrace(6));
    assert Run(items, 9, Chained, ExampleTrace(6)) == ExampleTrace(6);
  }

  /** A run that is not over continues from the state one jump later. */
  lemma RunStepsTo(items: seq<Item>, budget: nat, e: Estimate, s: Search, s': Search)
    requires Invariant(items, budget, e, s) && s.phase != Done && Step(items, budget, e, s) == s'
    ensures Run(items, budget, e, s) == Run(items, budget, e, s')
  {
  }

  /** The run as written on the example goes through the whole trace. */
  lemma ExampleRun(items: seq<Item>)
    requires Example(items) && Invariant(items, 9, Chained, ExampleTrace(0))
    ensures Run(items, 9, Chained, ExampleTrace(0)) == ExampleTrace(6)
  {
    ExampleSkipFirst(items);
    ExampleSkipSecond(items);
    ExampleLeaf(items);
    ExamplePop(items);
    ExamplePrune(items);
    ExampleStop(items);
  }

  /**
    The search as written, on the example with budget 9: it keeps one unit
    of the first item, worth 11, because at depth 1 the chained estimate 11
    prunes the subtree that holds three units of the third item, which fit
    and are worth 12.
   */
  lemma ChainedSearchMissesOptimum(items: seq<Item>)
    requires Example(items)
    ensures PositiveCosts(items) && NonNegativeValues(items) && SortedFrom(items, 0)
    ensures Outcome(items, 9, Chained).bestStack == [Take(0, 1)] && Outcome(items, 9, Chained).bestValue == 11
    ensures Weighted(Costs(items), [0, 0, 3]) == 9 && Weighted(Values(items), [0, 0, 3]) == 12
  {
    ExampleSound(items);
    ExampleOutcome(items);
    ExampleBetterCounts(items);
  }

  /** The example's items have positive costs, non-negative values and non-increasing ratios. */
  lemma ExampleSound(items: seq<Item>)
    requires Example(items)
    ensures PositiveCosts(items) && NonNegativeValues(items) && SortedFrom(items, 0)
  {
    assert Ratio(items[0]) >= Ratio(items[1]) >= Ratio(items[2]);
  }

  /** The search as written stops in the last state of the trace. */
  lemma ExampleOutcome(items: seq<Item>)
    requires Example(items)
    ensures PositiveCosts(items)
    ensures Outcome(items, 9, Chained).bestStack == [Take(0, 1)] && Outcome(items, 9, Chained).bestValue == 11
  {
    RootInvariant(items, 9, Chained);
    ExampleRoot(items);
    ExampleRun(items);
  }

  /** The root commit takes 9 / 7 = 1 unit of item 0. */
  lemma ExampleRoot(items: seq<Item>)
    requires Example(items)
    ensures Root(items, 9) == ExampleTrace(0)
  {
    assert 9 / 7 == 1;
  }

  /** Three units of the third item cost 9 and are worth 12. */
  lemma ExampleBetterCounts(items: seq<Item>)
    requires Example(items)
    ensures Weighted(Costs(items), [0, 0, 3]) == 9 && Weighted(Values(items), [0, 0, 3]) == 12
  {
    assert Costs(items) == [7, 5, 3];
    assert WeightedFrom(Costs(items), [0, 0, 3], 2) == 9;
    assert Values(items) == [11, 7, 4];
    assert WeightedFrom(Values(items), [0, 0, 3], 2) == 12;
  }

  // ------------------------------------------------------------------ solve

  /** The first depth above every entry of a take stack (0 when it is empty). */
  function Above(s: seq<Take>): int
  {
    if |s| == 0 then 0 else s[|s| - 1].depth + 1
  }

  /**
    The count of entry k is at its depth, and the depths strictly between
    entry k - 1 and entry k have count zero.
   */
  lemma {:induction false} CountsOfEntry(s: seq<Take>, n: nat, k: nat)
    requires IsTakeStack(s, n) && k < |s|
    ensures CountsOf(s, n)[s[k].depth] == s[k].units
    ensures forall d :: Above(s[..k]) <= d < s[k].depth ==> CountsOf(s, n)[d] == 0
    decreases |s|
  {
    var s' := s[..|s| - 1];
    if k == |s| - 1 {
      assert s[..k] == s';
      CountsOfZeroFrom(s', n, Above(s'));
    } else {
      assert s'[..k] == s[..k];
      CountsOfEntry(s', n, k);
    }
  }

  /**
    What the pop loop of solve leaves in the solution: the count of each
    sorted item's original index is the count the stack gives its depth, and
    every item that was filtered out has count zero.
   */
  ghost predicate Sets(ids: seq<nat>, stack: seq<Take>, counts: seq<int>)
    requires IsTakeStack(stack, |ids|)
  {
    (forall d :: 0 <= d < |ids| ==> ids[d] < |counts|) &&
    Pull(counts, ids) == CountsOf(stack, |ids|) &&
    (forall i :: 0 <= i < |counts| && i !in ids ==> counts[i] == 0)
  }

  /** The pop loop of solve: `set` the original index of each entry's depth to its units, top first. */
  method SetCounts(solution: UnboundedSolution, ids: seq<nat>, bestStack: seq<Take>)
    requires solution.Valid() && DistinctIndices(ids, |solution.items|)
    requires forall i :: 0 <= i < |solution.items| ==> solution.counts[i] == 0
    requires IsTakeStack(bestStack, |ids|)
    modifies solution
    ensures solution.Valid()
    ensures Sets(ids, bestStack, solution.counts)
  {
    var n := |ids|;
    var x := CountsOf(bestStack, n);
    CountsOfZeroFrom(bestStack, n, Above(bestStack));
    var stack := bestStack;
    while |stack| > 0
      invariant solution.Valid()
      invariant |stack| <= |bestStack| && stack == bestStack[..|stack|]
      invariant forall d :: 0 <= d < n ==> solution.counts[ids[d]] == (if d < Above(stack) then 0 else x[d])
      invariant forall i :: 0 <= i < |solution.items| && i !in ids ==> solution.counts[i] == 0
    {
      var top := stack[|stack| - 1];
      CountsOfEntry(bestStack, n, |stack| - 1);
      assert bestStack[..|stack| - 1] == stack[..|stack| - 1];
      solution.Set(ids[top.depth], top.units);
      stack := stack[..|stack| - 1];
    }
    assert Pull(solution.counts, ids) == x;
  }

  /** Counts within the budget only use items that fit the budget on their own. */
  lemma CountedItemsFit(items: seq<Item>, budget: int, m: seq<int>, i: nat)
    requires PositiveCosts(items) && |m| == |items| && NonNegative(m)
    requires Weighted(Costs(items), m) <= budget
    requires i < |m| && m[i] != 0
    ensures items[i].cost <= budget
  {
    WeightedFromAtLeastMember(Costs(items), m, 0, i);
    MulMono(1, m[i], items[i].cost);
  }

  /**
    The solution set from the stack is worth the stack's value and costs the
    stack's cost; and when the stack was optimal over the sorted fitting
    items, the solution is optimal over all counts of the caller's items.
   */
  lemma SetSolution(items: seq<Item>, budget: int, sorted: seq<Item>, ids: seq<nat>,
                    bestStack: seq<Take>, counts: seq<int>)
    requires PositiveCosts(items) && |sorted| == |ids| && |counts| == |items|
    requires forall k :: 0 <= k < |ids| ==> ids[k] < |items| && sorted[k] == items[ids[k]]
    requires DistinctIndices(ids, |items|)
    requires forall i :: 0 <= i < |items| ==> (i in ids <==> items[i].cost <= budget)
    requires IsTakeStack(bestStack, |sorted|) && Sets(ids, bestStack, counts)
    ensures NonNegative(counts)
    ensures Weighted(Values(items), counts) == TakeSum(Values(sorted), bestStack)
    ensures Weighted(Costs(items), counts) == TakeSum(Costs(sorted), bestStack)
    ensures (forall m: seq<int> :: |m| == |sorted| && NonNegative(m) && Weighted(Costs(sorted), m) <= budget ==>
               Weighted(Values(sorted), m) <= TakeSum(Values(sorted), bestStack))
        ==> (forall m: seq<int> :: |m| == |items| && NonNegative(m) && Weighted(Costs(items), m) <= budget ==>
               Weighted(Values(items), m) <= Weighted(Values(items), counts))
  {
    var x := CountsOf(bestStack, |sorted|);
    TakeSumIsWeighted(Values(sorted), bestStack);
    TakeSumIsWeighted(Costs(sorted), bestStack);
    forall i | 0 <= i < |counts|
      ensures counts[i] >= 0
    {
      if i in ids {
        var k :| 0 <= k < |ids| && ids[k] == i;
        assert counts[i] == x[k];
      }
    }
    WeightedReindex(Values(items), counts, Values(sorted), ids);
    WeightedReindex(Costs(items), counts, Costs(sorted), ids);
    forall m: seq<int> | |m| == |items| && NonNegative(m) && Weighted(Costs(items), m) <= budget
      ensures NonNegative(Pull(m, ids)) && Weighted(Costs(sorted), Pull(m, ids)) <= budget
      ensures Weighted(Values(items), m) == Weighted(Values(sorted), Pull(m, ids))
    {
      forall i | 0 <= i < |m| && m[i] != 0
        ensures i in ids
      {
        CountedItemsFit(items, budget, m, i);
      }
      WeightedReindex(Values(items), m, Values(sorted), ids);
      WeightedReindex(Costs(items), m, Costs(sorted), ids);
    }
  }

  /**
    The end of solve: a fresh solution whose counts are set from the best
    stack through the saved indices. It is worth the stack's value, costs the
    stack's cost, and is optimal over the caller's items when the stack is
    optimal over the sorted ones.
   */
  method PopSolution(items: seq<Item>, budget: int, sorted: seq<Item>, ids: seq<nat>, bestStack: seq<Take>)
    returns (solution: UnboundedSolution)
    requires PositiveCosts(items) && Preprocessed(items, budget, sorted, ids) && IsTakeStack(bestStack, |sorted|)
    ensures fresh(solution) && solution.Valid() && solution.items == items
    ensures Sets(ids, bestStack, solution.counts) && NonNegative(solution.counts)
    ensures Weighted(Values(items), solution.counts) == TakeSum(Values(sorted), bestStack)
    ensures Weighted(Costs(items), solution.counts) == TakeSum(Costs(sorted), bestStack)
    ensures (forall m: seq<int> :: |m| == |sorted| && NonNegative(m) && Weighted(Costs(sorted), m) <= budget ==>
               Weighted(Values(sorted), m) <= TakeSum(Values(sorted), bestStack))
        ==> (forall m: seq<int> :: |m| == |items| && NonNegative(m) && Weighted(Costs(items), m) <= budget ==>
               Weighted(Values(items), m) <= Weighted(Values(items), solution.counts))
  {
    solution := new UnboundedSolution(items);
    SetCounts(solution, ids, bestStack);
    SetSolution(items, budget, sorted, ids, bestStack, solution.counts);
  }

  /**
    solve. Preprocesses the items, runs the search with the estimate `e` on
    the sorted fitting items, then pops the winning stack and sets the count
    of the original index of every entry's depth to the entry's units. The
    ghost outputs are the preprocessed items and indices. For either estimate
    the result is exactly what the best stack of `Outcome` sets, worth its
    `best_value`, takes no negative count and is within the budget; with the
    corrected estimate and no negative value it is worth at least as much as
    any counts within the budget.

    When no item fits, the source still commits units of the first sorted
    item, which does not exist; the model returns the empty solution instead.
   */
  method Solve(items: seq<Item>, budget: int, e: Estimate)
    returns (solution: UnboundedSolution, ghost sorted: seq<Item>, ghost ids: seq<nat>)
    requires PositiveCosts(items) && budget >= 0
    ensures fresh(solution) && solution.Valid() && solution.items == items
    ensures Preprocessed(items, budget, sorted, ids)
    ensures |sorted| == 0 ==> forall i :: 0 <= i < |items| ==> solution.counts[i] == 0
    ensures |sorted| > 0 ==>
      (sorted[0].cost <= budget &&
       Sets(ids, Outcome(sorted, budget, e).bestStack, solution.counts) &&
       Weighted(Values(items), solution.counts) == Outcome(sorted, budget, e).bestValue)
    ensures NonNegative(solution.counts)
    ensures Weighted(Costs(items), solution.counts) <= budget
    ensures e == Relaxed && NonNegativeValues(items) ==>
      forall m: seq<int> :: |m| == |items| && NonNegative(m) && Weighted(Costs(items), m) <= budget ==>
        Weighted(Values(items), m) <= Weighted(Values(items), solution.counts)
  {
    var sortedItems, permutedId := Preprocess(items, budget);
    sorted, ids := sortedItems, permutedId;
    SortedFits(items, budget, sortedItems, permutedId);
    var bestStack: seq<Take> := [];
    if |sortedItems| > 0 {
      var bestValue;
      bestStack, bestValue := IterativeBnb(sortedItems, budget, e);
    } else {
      forall m: seq<int> | |m| == 0
        ensures Weighted(Values(sortedItems), m) <= TakeSum(Values(sortedItems), bestStack)
      {
        WeightedFromZero(Values(sortedItems), m, 0);
      }
    }
    solution := PopSolution(items, budget, sortedItems, permutedId, bestStack);
  }
}

=== FILE: unbounded_order.dfy ===
/**
  The order in which the unbounded depth-first search visits take counts.

  A node of the search fixes, for every depth i < d, how many units x[i] of
  item i are taken. At each depth the search tries the largest count that
  fits first and then one unit fewer at a time, down to zero. With every
  count in [0, M], the leaves (full count vectors x) are therefore visited in
  increasing order of
      CountKey(x, M, n) = sum over i of (M - x[i]) * (M + 1)^(n-1-i),
  the number whose base-(M + 1) digits are M - x[i]. The leaves below the
  node (x, d) have keys in [CountKey(x, M, d), CountKey(x, M, d) + (M + 1)^(n-d)).
 */
module UnboundedOrder {

  /** (M + 1)^k: the weight of a digit k places from the right. */
  function Place(M: nat, k: nat): (p: nat)
    ensures p >= 1
  {
    if k == 0 then 1 else (M + 1) * Place(M, k - 1)
  }

  /** Every count lies in [0, M]. */
  predicate InRange(x: seq<int>, M: nat)
  {
    forall i :: 0 <= i < |x| ==> 0 <= x[i] <= M
  }

  /** Sum of (M - x[i]) * (M + 1)^(|x|-1-i) over the depths i < d. */
  function CountKey(x: seq<int>, M: nat, d: nat): int
    requires d <= |x|
  {
    if d == 0 then 0 else CountKey(x, M, d - 1) + (M - x[d - 1]) * Place(M, |x| - d)
  }

  /** One more place multiplies by M + 1. */
  lemma PlaceNext(M: nat, k: nat)
    ensures Place(M, k + 1) == M * Place(M, k) + Place(M, k)
  {
  }

  /** a <= b and p >= 0 give a * p <= b * p. */
  lemma MulMono(a: int, b: int, p: int)
    requires a <= b && p >= 0
    ensures a * p <= b * p
  {
    assert b * p - a * p == (b - a) * p;
  }

  /** The first k-place digits of a child that takes u >= 0 units stay inside its parent's range. */
  lemma ChildBelowNode(M: nat, k: nat, u: int)
    requires u >= 0
    ensures (M - u) * Place(M, k) < Place(M, k + 1)
  {
    PlaceNext(M, k);
    MulMono(M - u, M, Place(M, k));
  }

  /** a * p < b * p with p >= 1 gives a < b. */
  lemma MulCancel(a: int, b: int, p: int)
    requires p >= 1 && a * p < b * p
    ensures a < b
  {
    if a >= b {
      MulMono(b, a, p);
    }
  }

  /** Deeper prefixes only add, and never more than the all-zero-counts amount. */
  lemma {:induction false} KeyRange(x: seq<int>, M: nat, a: nat, d: nat)
    requires a <= d <= |x| && InRange(x, M)
    ensures CountKey(x, M, a) <= CountKey(x, M, d) <= CountKey(x, M, a) + Place(M, |x| - a) - Place(M, |x| - d)
    decreases d - a
  {
    if a < d {
      KeyRange(x, M, a, d - 1);
      var p := Place(M, |x| - d);
      PlaceNext(M, |x| - d);
      MulMono(0, M - x[d - 1], p);
      MulMono(M - x[d - 1], M, p);
    }
  }

  /** Every key of a count vector in range is below (M + 1)^n. */
  lemma KeyBelowTop(x: seq<int>, M: nat)
    requires InRange(x, M)
    ensures 0 <= CountKey(x, M, |x|) < Place(M, |x|)
  {
    KeyRange(x, M, 0, |x|);
  }

  /** Zero counts at every depth in [a, d) add (M + 1)^(n-a) - (M + 1)^(n-d). */
  lemma {:induction false} KeyGap(x: seq<int>, M: nat, a: nat, d: nat)
    requires a <= d <= |x|
    requires forall i :: a <= i < d ==> x[i] == 0
    ensures CountKey(x, M, d) == CountKey(x, M, a) + Place(M, |x| - a) - Place(M, |x| - d)
    decreases d - a
  {
    if a < d {
      KeyGap(x, M, a, d - 1);
      PlaceNext(M, |x| - d);
    }
  }

  /** The key of a prefix only depends on the counts in that prefix. */
  lemma {:induction false} KeyAgree(x: seq<int>, y: seq<int>, M: nat, d: nat)
    requires |x| == |y| && d <= |x|
    requires forall i :: 0 <= i < d ==> x[i] == y[i]
    ensures CountKey(x, M, d) == CountKey(y, M, d)
  {
    if d > 0 {
      KeyAgree(x, y, M, d - 1);
    }
  }

  /** Two digits with the same place, the first plus a remainder below the place, in the second's range. */
  lemma SameDigit(dx: int, dy: int, r: int, p: int)
    requires p >= 1 && 0 <= r < p
    requires dy * p <= dx * p + r < dy * p + p
    ensures dx == dy
  {
    if dx < dy {
      MulMono(dx + 1, dy, p);
    } else if dx > dy {
      MulMono(dy + 1, dx, p);
    }
  }

  /**
    A count vector x whose key lies in the key range of the node (y, d)
    agrees with y at every depth below d: it is a leaf below that node.
   */
  lemma {:induction false} KeyDeterminesPrefix(x: seq<int>, y: seq<int>, M: nat, d: nat)
    requires |x| == |y| && d <= |x| && InRange(x, M) && InRange(y, M)
    requires CountKey(y, M, d) <= CountKey(x, M, |x|) < CountKey(y, M, d) + Place(M, |x| - d)
    ensures forall i :: 0 <= i < d ==> x[i] == y[i]
  {
    if d > 0 {
      var n := |x|;
      var p := Place(M, n - d);
      PlaceNext(M, n - d);
      MulMono(0, M - y[d - 1], p);
      MulMono(M - y[d - 1] + 1, M + 1, p);
      assert (M - y[d - 1] + 1) * p == (M - y[d - 1]) * p + p;
      assert (M + 1) * p == M * p + p;
      KeyDeterminesPrefix(x, y, M, d - 1);
      KeyAgree(x, y, M, d - 1);
      KeyRange(x, M, d, n);
      assert Place(M, 0) == 1;
      var k := CountKey(x, M, d - 1);
      var r := CountKey(x, M, n) - CountKey(x, M, d);
      SameDigit(M - x[d - 1], M - y[d - 1], r, p);
    }
  }

  /** Full count vectors in range with the same key are equal. */
  lemma KeyDeterminesLeaf(x: seq<int>, y: seq<int>, M: nat)
    requires |x| == |y| && InRange(x, M) && InRange(y, M)
    requires CountKey(x, M, |x|) == CountKey(y, M, |y|)
    ensures x == y
  {
    assert Place(M, 0) == 1;
    KeyDeterminesPrefix(x, y, M, |x|);
  }

  /** Fixing the count at depth d extends the key of the prefix by one digit. */
  lemma KeyCommit(x: seq<int>, M: nat, d: nat, u: int)
    requires d < |x|
    ensures CountKey(x[d := u], M, d + 1) == CountKey(x, M, d) + (M - u) * Place(M, |x| - d - 1)
  {
    KeyAgree(x[d := u], x, M, d);
  }

  /**
    Backtracking at depth t: the end of the subtree of (x, d), with zero
    counts on (t, d), is the start of the sibling with one unit fewer at t.
   */
  lemma KeyOneFewer(x: seq<int>, M: nat, t: nat, d: nat)
    requires t < d <= |x|
    requires forall i :: t < i < d ==> x[i] == 0
    ensures CountKey(x, M, d) + Place(M, |x| - d) == CountKey(x[t := x[t] - 1], M, t + 1)
  {
    var x' := x[t := x[t] - 1];
    var p := Place(M, |x| - (t + 1));
    KeyGap(x, M, t + 1, d);
    KeyAgree(x', x, M, t);
    assert (M - (x[t] - 1)) * p == (M - x[t]) * p + p;
  }

  /**
    A leaf below the node (y, d) whose key comes before the child of (y, d)
    that takes u units at depth d takes more than u units there.
   */
  lemma KeyDigitAbove(z: seq<int>, y: seq<int>, M: nat, d: nat, u: int)
    requires |z| == |y| && d < |z| && InRange(z, M)
    requires forall i :: 0 <= i < d ==> z[i] == y[i]
    requires CountKey(z, M, |z|) < CountKey(y, M, d) + (M - u) * Place(M, |z| - d - 1)
    ensures z[d] > u
  {
    KeyAgree(z, y, M, d);
    KeyRange(z, M, d + 1, |z|);
    MulCancel(M - z[d], M - u, Place(M, |z| - d - 1));
  }
}
